=== FILE: README.md ===
# G3NAR core, modelled in Dafny

G3NAR is a browser AR viewer. The phone camera is pointed at one of nine
artworks. An image-tracking engine (MindAR, on Three.js) recognises the
artwork, and the viewer plays that artwork's video on a plane anchored to it.
Two Node scripts check the content folders and compile target images.

This project models the deterministic logic of that system:

- **Tracker** (`tracker.dfy`, from `src/ar/tracker.ts`). The tracking session is
  a record. Construction, `start`, the per-anchor found and lost handlers, the
  video events the handlers subscribe to (`loadedmetadata`, `canplay`) and
  `stop` are pure step functions over it.
  - Found and lost cover the overlay bookkeeping: group visibility, attached
    planes and the recorded plane per target index.
  - Plane creation covers the lazy target-dimension cache and the
    aspect-source precedence.
  - The found handler also carries the lazy `data-src` and play policy.
  - `start` covers the engine path and its camera-only fallback. How far the
    engine gets is an input (`EnginePhase`), and so are the camera's answers.
  - `stop` covers the guarded cleanup and the reset.
  - A `Valid` invariant holds for every session reachable from construction
    (`ReachableIsValid`). The lemmas that assume it are justified by that.
- **Routing** (`routing.dfy`, `src/routing/id.ts`): the nine artwork ids, their
  asset locations (with the case-sensitive `.MP4` exception), the
  all-assets map and deep-link parsing of `/art/<id>`. The regular expression
  is modelled exactly: `.` refuses line terminators and the match is leftmost.
- **Camera** (`camera.dfy`, `src/ar/camera.ts`): acquisition and classification of a refusal into
  permission-denied, not-found or passed through, and releasing tracks.
- **Fallback controller** (`fallback.dfy`, `src/ui/fallback.ts`): the
  Idle/Offer/Playing machine. The host's timers are a map from issued handle
  to delay: `arm` and `cancel` add and clear entries, and a `Fire` event
  delivers one.
- **Overlay** and **Hints** (`overlay.dfy`, `hints.dfy`): plane scale from an
  aspect hint, and the hint texts.
- **Content check** (`content_check.dfy`, `scripts/verify-content.mjs`): every
  `.mind` target needs a `.mp4` of the same id. The filesystem is a map from a
  directory to its listing.
- **Target compiler** (`compile_targets.dfy`, `scripts/compile-targets.mjs`):
  - source-directory choice;
  - the case-insensitive image filter;
  - output naming by stripping the last extension;
  - one external compile per image, whose exit status is an input;
  - the failure count;
  - the `--compile` dispatch.

  Its `verifyPairs` (lines 17-30) is the same code as `verify-content.mjs`
  and is modelled once, as `ContentCheck.VerifyContent`.

Shared pieces: `wrappers.dfy` (`Option`, `Result`) and `strings.dfy`
(`StartsWith`, `EndsWith`, and `Subsequence`: a listing with some entries
deleted and the order kept).

## Model

| member | source | states |
|---|---|---|
| Routing.VideoExt | src/routing/id.ts:20-33 | The extension is `.MP4` exactly for `metatation`. It is `.mp4` exactly for every other id that is not an `Object.prototype` member name, including ids missing from the table. For an inherited name such as `constructor`, the lookup finds the inherited member, `??` keeps it, and the extension is that member's text. |
| Routing.ResolveAssetUrls | src/routing/id.ts:32-39 | Each of the three locations reads back, between its fixed prefix and suffix, exactly the argument: the id is interpolated verbatim. |
| Routing.ResolveAssetUrlsInjective | src/routing/id.ts:32-39 | Two different ids never share a target, video or metadata location. |
| Routing.ArtworksDistinct | src/routing/id.ts:5-15 | No artwork id is listed twice. |
| Routing.KeyedByDistinct | src/routing/id.ts:41-47 | A map keyed by exactly the elements of a duplicate-free list has one entry per element. |
| Routing.ResolveEach | src/routing/id.ts:42-45 | The loop builds a map whose keys are exactly the given ids, each mapped to its locations. |
| Routing.KeyEach | src/routing/id.ts:42-45 | The keys are exactly the given ids, and each is mapped to the function's value for it. |
| Routing.ResolveAllAssets | src/routing/id.ts:41-47 | The all-assets map has exactly the nine ids as keys (nine entries), each mapped to its own locations. |
| Routing.FirstMatch | src/routing/id.ts:50 | The search returns the leftmost position where `/art/` is followed by a nonempty rest free of line terminators, or reports that none exists. |
| Routing.FirstMatchFinds | src/routing/id.ts:50 | When `q` matches and no earlier position does, the search returns `q`. |
| Routing.Captured | src/routing/id.ts:50-51 | A capture is the whole rest of the path after the leftmost matching `/art/`. No earlier position matches. There is no capture exactly when no position matches. |
| Routing.GetIdFromPath | src/routing/id.ts:49-53 | The result is always a known id, and a result other than the default is the path's ending after `/art/`. |
| Routing.DeepLinkSelectsId | src/routing/id.ts:49-53 | `prefix/art/<id>` selects `id` for every known id when no earlier `/art/` matches. |
| Routing.NoDeepLinkSelectsDefault | src/routing/id.ts:50-51 | A path where the pattern matches nowhere selects `autopoiesis`. |
| Routing.TrailingSlashSelectsDefault | src/routing/id.ts:52 | `/art/<id>/` selects the default for every known id: the comparison is exact. |
| Routing.CapitalisedIdSelectsDefault | src/routing/id.ts:52 | `/art/Metatation` selects the default: the comparison is case-sensitive. |
| Routing.CaptureRunsToEnd | src/routing/id.ts:50 | The capture of `/art/a/b` is `a/b`: further slashes are included. |
| Routing.UnknownLinkResolvesDefaultAssets | src/routing/id.ts:51-52 | An unmatched or unknown deep link resolves to the assets of `autopoiesis`. |
| Camera.Normalize | src/ar/camera.ts:13-22 | A refusal is permission-denied exactly for `NotAllowedError` or `PermissionDeniedError` and not-found exactly for `NotFoundError` or `OverconstrainedError`. Anything else, a falsy value included, is rethrown unchanged. |
| Camera.StartCamera | src/ar/camera.ts:3-23 | Without `getUserMedia` it fails with `getUserMedia not supported` and makes no request. Otherwise it requests video with the given facing mode (`environment` by default) and no audio, and returns the granted stream. A refusal becomes exactly the normalised failure: `camera-permission-denied` exactly for a permission name, `camera-not-found` exactly for a not-found name, and otherwise the host's rejection rethrown unchanged. It never reports "unsupported" for a refusal. |
| Camera.PermissionScenario | src/ar/camera.ts:15-21 | A `NotAllowedError` surfaces as `camera-permission-denied`, as the permission test expects. Falsy and unnamed refusals pass through. |
| Camera.StopCamera | src/ar/camera.ts:25-27 | No stream, no effect. Otherwise every track, in order, is stopped and nothing else changes. |
| Camera.StopCameraTwice | src/ar/camera.ts:25-27 | Releasing an already released stream changes nothing. |
| Overlay.CalcPlaneScale | src/ar/overlay.ts:4-10 | Height is always 1. A supplied aspect (even 0) is the width, otherwise width times video height equals video width, otherwise width 1. |
| Overlay.ScaleRatioIsAspect | src/ar/overlay.ts:5-9 | Width over height equals the supplied aspect, whatever video is given. |
| Overlay.ScaleFollowsVideo | src/ar/overlay.ts:5-9 | Without an aspect the plane has the video's width-to-height ratio. |
| Hints.HintText | src/ui/hints.ts:4-11 | Every hint key has a nonempty text. |
| Hints.HintTextIdentifiesKey | src/ui/hints.ts:4-11 | The key can be read back from its text alone. |
| Hints.HintTexts | src/ui/hints.ts:6-9 | The four texts are exactly the interface strings, and distinct keys never share a text. |
| Fallback.Init | src/ui/fallback.ts:5-7 | A new controller is idle, holds no timer, has no timer pending with the host, and has run neither callback. |
| Fallback.Cancel | src/ui/fallback.ts:24 | The held timer is removed from the host's pending timers, so afterwards nothing is held or pending. With nothing held it is a no-op. |
| Fallback.Arm | src/ui/fallback.ts:8-14 | Every timer pending before is cleared with the host, and exactly one new timer is pending: the next unissued handle, with the given delay (2000 by default). The controller holds that handle. The phase is unchanged. |
| Fallback.Fire | src/ui/fallback.ts:10-13 | Only a delivery of a handle the host still has pending acts: it enters Offer, calls the show callback once, and the timer is no longer pending. A delivery of any other handle changes nothing. |
| Fallback.Play | src/ui/fallback.ts:15-19 | Enters Playing and calls the play callback once. It leaves nothing pending when the callback returns. When the callback throws, the cancel after it never runs and the pending timer is kept. |
| Fallback.ThrowingPlayStillOffers | src/ui/fallback.ts:8-19 | After arm, a play whose callback throws leaves the timer alive. Its delivery shows the offer and leaves Playing. After a play that returns, the same delivery changes nothing. |
| Fallback.Reset | src/ui/fallback.ts:20-23 | Enters Idle and leaves nothing pending. |
| Fallback.Step | src/ui/fallback.ts:4-25 | Every operation keeps the invariant that each timer pending with the host is the held one. Hence at most one timer is pending after any operation. The next-handle counter never goes back, and after an arm the only pending handle is the one just issued. |
| Fallback.AtMostOnePending | src/ui/fallback.ts:8-14 | When every pending timer is the held one, at most one timer is pending, and a pending timer's handle is the held handle. |
| Fallback.Run | src/ui/fallback.ts:4-25 | Any sequence of operations from a valid controller keeps the invariant, leaves at most one timer pending, and never moves the next-handle counter back. |
| Fallback.ArmIssuesUnusedHandle | src/ui/fallback.ts:8-14 | After any sequence of operations, an arm leaves no handle issued before pending, so a stale handle never becomes pending again. |
| Fallback.NoShowWithoutArm | src/ui/fallback.ts:8-24 | With nothing pending, no sequence of deliveries, plays and resets calls the show callback; only a new `arm` can. |
| Fallback.ArmThenResetNeverShows | src/ui/fallback.ts:8-23 | After `arm` then `reset`, no delivery whatsoever shows the offer. |
| Fallback.RearmReplaces | src/ui/fallback.ts:8-14 | After arming twice, the first handle is no longer pending with the host and only the second is. Delivering the first changes nothing, and the second shows the offer exactly once. |
| Tracker.Construct | src/ar/tracker.ts:30-34 | Index i maps to the i-th key for exactly the indices of the keys. Nothing is running or registered. |
| Tracker.ConstructBijective | src/ar/tracker.ts:30-34 | With distinct keys the index map is a bijection between 0..n-1 and the keys. |
| Tracker.CollectDims | src/ar/tracker.ts:97-106 | An entry is cached exactly when it is an array of length at least 2 whose first two numbers are finite and positive. It holds those two numbers. |
| Tracker.LazyDims | src/ar/tracker.ts:93-112 | A nonempty cache is never re-read or overwritten. An empty one is filled from the engine's dimensions: an index is cached exactly when its entry is usable, and it holds that entry's two numbers. It stays empty when the engine has none. |
| Tracker.ChooseAspect | src/ar/tracker.ts:137-156 | The cached target dimensions win whenever present. Otherwise the video's size is used exactly when both sides are nonzero. Otherwise the plane waits for metadata. A new plane is never unscaled. |
| Tracker.ApplyMetadata | src/ar/tracker.ts:138-143 | A deferred plane takes the reported size exactly when both sides are nonzero (`w && h`). Otherwise it stays unscaled. |
| Tracker.CreatePlane | src/ar/tracker.ts:80-169 | Only index i's anchor and plane record change. The dimension cache is read lazily exactly when the artwork has a video; otherwise it is kept. The index map, engine, feeds and running flag are untouched. |
| Tracker.Engage | src/ar/tracker.ts:366-424 | `src` changes exactly when it is empty and `data-src` is not, and then becomes `data-src`. The video is unhidden and gets one more `canplay` listener. With metadata loaded, play is called now; otherwise load is called and play waits. |
| Tracker.Found | src/ar/tracker.ts:354-428 | Without an anchor for the index nothing happens. Otherwise the group is shown. For a playable anchor, the next plane id joins its children, is recorded for the index, and is created for that target. Other indices' anchors are untouched. |
| Tracker.Lost | src/ar/tracker.ts:430-452 | Without an anchor nothing happens. Otherwise the group is hidden and the index's record is forgotten. A recorded plane is detached from the group's children, and with none the children stay. The artwork's video is paused and hidden. Created planes are kept. |
| Tracker.FoundAddsPlane | src/ar/tracker.ts:354-362 | For a playable anchor, found shows the group, adds exactly the next plane id to its children, records it for the index, and registers it with that target and artwork. |
| Tracker.FoundAttachesFreshPlane | src/ar/tracker.ts:161-162 | The attached plane is new: it was neither a child of the group nor a created plane. Every earlier plane is kept unchanged. |
| Tracker.FoundTouchesOnlyItsIndex | src/ar/tracker.ts:354-428 | A found event leaves every other index's anchor and recorded plane untouched. |
| Tracker.FoundWithoutVideoCreatesNoPlane | src/ar/tracker.ts:86-91 | When the artwork has no video, found only shows the group. |
| Tracker.RepeatedFoundAccumulates | src/ar/tracker.ts:161-162 | A second found attaches a second plane without detaching the first. The group holds both, and the record names the second. |
| Tracker.RepeatedFoundLeavesOrphan | src/ar/tracker.ts:437-441 | After two founds, lost detaches only the second plane, and the first stays in the group. |
| Tracker.LostDetachesPlane | src/ar/tracker.ts:430-452 | Lost hides the group. A recorded plane is detached and forgotten; with none, the record is unchanged. The artwork's video is paused and hidden. No other index, video or plane changes. |
| Tracker.FoundReadsDimsOnlyWhenEmpty | src/ar/tracker.ts:93-112 | Found reads the engine's dimensions only when the cache is empty and a plane is being made. It then keeps exactly the usable entries. |
| Tracker.FoundAspectPrecedence | src/ar/tracker.ts:137-156 | The new plane's aspect source is, in order: the cached dimensions for the index, the video's size if both sides are nonzero, or a metadata listener on the video. |
| Tracker.MetadataLoaded | src/ar/tracker.ts:151-155 | `loadedmetadata` scales exactly the planes waiting on that video, consumes their one-shot listeners, and leaves every other plane alone. |
| Tracker.DeferredPlaneScaledOnMetadata | src/ar/tracker.ts:138-155 | A deferred plane takes the video's reported size when metadata arrives, and stays unscaled when a side is zero. |
| Tracker.CanPlay | src/ar/tracker.ts:400-415 | `canplay` runs every pending one-shot listener: one play() each, after which none remain. |
| Tracker.FoundStartsVideo | src/ar/tracker.ts:365-424 | `src` is taken from `data-src` exactly when `src` is empty and `data-src` is not, and the video is unhidden. With metadata loaded, play is requested at once and again on `canplay`; otherwise load() is called and play waits for `canplay`. No other video changes. |
| Tracker.FoundThenCanPlayPlays | src/ar/tracker.ts:397-424 | Whatever the ready state, found followed by `canplay` leaves the video visible and asked to play, with a source when it had one or a `data-src`. |
| Tracker.LostThenCanPlayResumes | src/ar/tracker.ts:443-449 | Lost does not remove the pending `canplay` listener. A later `canplay` requests play again while the video stays hidden. |
| Tracker.Register | src/ar/tracker.ts:348-353 | Indices 0..count-1 get a hidden, empty anchor capturing that index's key. Other anchors and all other fields are unchanged. |
| Tracker.Registered | src/ar/tracker.ts:348-353 | A failing phase registers no more anchors than there are keys. |
| Tracker.EngineAttempt | src/ar/tracker.ts:321-509 | The engine handle is the new engine exactly when the constructor succeeded. The tracker runs afterwards exactly when it already ran or the engine got past its start. The index map, videos, cache, planes and feeds are unchanged. |
| Tracker.FallbackChain | src/ar/tracker.ts:48-78 | The fallback resolves exactly when some camera answer within the budget grants a stream, after refusals only before it, appending one feed and setting running. Otherwise it rejects with the last error after using the whole budget and leaves the session unchanged. |
| Tracker.FallbackTries | src/ar/tracker.ts:307-317 | The fallback runs only when the engine path fails, at most three times per start. |
| Tracker.Start | src/ar/tracker.ts:172-173 | When running, start changes nothing. Otherwise it never reports "already running", and it reports tracking exactly when the engine is ready. |
| Tracker.StartRegistersEveryIndex | src/ar/tracker.ts:343-353 | A successful engine start runs with its render loop and holds the engine. It has exactly one fresh anchor per target index, capturing that index's artwork. |
| Tracker.StartRegistersBeforeFailure | src/ar/tracker.ts:321-353 | Without a constructed engine the handle and anchors are left alone. Otherwise the handle is the new engine and every index before the failing one has a fresh anchor. |
| Tracker.StartFallsBackOnEngineError | src/ar/tracker.ts:510-515 | Every engine failure asks the camera at least once and at most the phase's budget. The start resolves exactly when some answer grants a stream (one feed appended); otherwise it rethrows the last error. |
| Tracker.StartRunningIff | src/ar/tracker.ts:460-465 | After a start that is not a no-op, the tracker runs exactly when the engine got past its own start or the camera fallback succeeded. |
| Tracker.NoConstructorAsksCameraThrice | src/ar/tracker.ts:307-317 | With no engine constructor and a camera that always refuses, one start asks the camera three times before rejecting. |
| Tracker.LookupThrowAsksCameraTwice | src/ar/tracker.ts:313-317 | When looking up the engine constructor throws and the camera refuses twice, the start is rejected with the second refusal after exactly two camera requests. |
| Tracker.LoadFailureAsksCameraOnce | src/ar/tracker.ts:505-513 | When constructing the engine, adding an anchor or starting the engine fails and the camera refuses, the start is rejected with that refusal after exactly one camera request. |
| Tracker.LateFailureRejectsWhileRunning | src/ar/tracker.ts:460-509 | A failure after `running` was set rejects the start while the tracker stays running. |
| Tracker.Stop | src/ar/tracker.ts:518-570 | Each cleanup step takes effect exactly when it does not throw (the engine ones only when there is an engine). Afterwards nothing runs, no engine is held, and the anchors and plane records are empty. The index map, videos, dimension cache and created planes are kept. |
| Tracker.Halted | src/ar/tracker.ts:561-567 | After the reset nothing runs, no engine is held, and no anchor or plane is recorded. The render loop and feeds are as the guarded steps left them. |
| Tracker.StopIdempotent | src/ar/tracker.ts:518-570 | Stopping twice is stopping once. |
| Tracker.RestartRebuildsSameAnchors | src/ar/tracker.ts:561-567 | After stop, a successful start rebuilds the same index map and anchors as the first start after construction. |
| Tracker.ReachableIsValid | src/ar/tracker.ts:19-34 | Every session reached by any sequence of events keeps the invariant. Every anchor captures its index's artwork. Every recorded plane is recorded for an index that has an anchor, and was created; it need not be among that anchor's current children. Plane ids are never reused. |
| Tracker.ConstructedRunIsValid | src/ar/tracker.ts:30-34 | Any run of events from a new tracker stays within the invariant. |
| ContentCheck.MindNames | scripts/verify-content.mjs:8 | Exactly the names ending in `.mind` are targets, each as often as the listing holds it. They keep the listing's order: the result is the listing with the other names deleted. |
| ContentCheck.Targets | scripts/verify-content.mjs:8 | A missing targets directory gives no targets. |
| ContentCheck.StripMind | scripts/verify-content.mjs:11 | One trailing `.mind` is removed, and a name without one is kept. |
| ContentCheck.StripMindInverse | scripts/verify-content.mjs:11 | Removing `.mind` from `id.mind` gives back `id`. |
| ContentCheck.UnpairedReports | scripts/verify-content.mjs:10-17 | An id is reported exactly when some target with that id lacks its `.mp4`. |
| ContentCheck.Unpaired | scripts/verify-content.mjs:10-17 | The reference list of unpaired ids, in target order, has at most one id per target. |
| ContentCheck.UnpairedEmpty | scripts/verify-content.mjs:9-18 | Nothing is reported exactly when every target is paired. |
| ContentCheck.CheckPairs | scripts/verify-content.mjs:9-17 | Every target is examined and every missing id reported, in order. The pairing passes exactly when every target is paired. |
| ContentCheck.VerifyContent | scripts/verify-content.mjs:5-18 | Exit 0 exactly when every `.mind` target in `public/targets` has `{id}.mp4` in `public/media`, otherwise exit 1. The missing ids are exactly the unpaired ones. |
| ContentCheck.UpperCaseMp4DoesNotPair | scripts/verify-content.mjs:12-13 | Only a lower-case `.mp4` pairs; `.MP4` does not. |
| ContentCheck.AppVideoMatchesCheck | scripts/verify-content.mjs:11-13 | The application's video location names the file the pairing check requires for every known id except `metatation`. |
| CompileTargets.PickSrcDir | scripts/compile-targets.mjs:8-15 | The result is the first candidate, in list order, that exists; there is none exactly when no candidate exists. |
| CompileTargets.BaseName | scripts/compile-targets.mjs:51 | The name is cut at its last dot when at least one character follows that dot. Otherwise it is kept whole. |
| CompileTargets.ImageBaseName | scripts/compile-targets.mjs:42-51 | A name passes the image filter exactly when its base name is shorter than the name and the stripped tail is `.png`, `.jpg` or `.jpeg` in some letter case. |
| CompileTargets.OutputIsTarget | scripts/compile-targets.mjs:51-53 | The output name is a `.mind` target, and its id is the image's base name. |
| CompileTargets.ExtensionOnlyDifferenceCollides | scripts/compile-targets.mjs:42-53 | `ventus.png` and `ventus.JPG` are both source images and write the same target file. |
| CompileTargets.Images | scripts/compile-targets.mjs:42 | The images are exactly the listing's names with an image extension, each as often as the listing holds it, in listing order: the listing with the other names deleted. |
| CompileTargets.FailuresPositive | scripts/compile-targets.mjs:58-65 | The failure count is positive exactly when some job's status is not 0, and it never exceeds the job count. |
| CompileTargets.CountFailures | scripts/compile-targets.mjs:49-64 | Every job runs, and the count equals the number of jobs whose status is not exactly 0. |
| CompileTargets.Failures | scripts/compile-targets.mjs:49-64 | The reference failure count never exceeds the number of jobs. |
| CompileTargets.RunJobs | scripts/compile-targets.mjs:50-57 | One job per image, in listing order: input `src/file`, output `public/targets/<base>.mind`. |
| CompileTargets.CompileAll | scripts/compile-targets.mjs:32-67 | With no source directory it fails and touches nothing. Otherwise it creates the targets directory if missing, fails with no images, runs one job per image, and exits 0 exactly when every job exited with 0. |
| CompileTargets.SelectMode | scripts/compile-targets.mjs:72 | Compiling is selected exactly when `--compile` is among the arguments. |
| CompileTargets.Dispatch | scripts/compile-targets.mjs:72-76 | In verify mode, exit 0 exactly when every target is paired. In compile mode, exit 0 exactly when a source directory exists, holds images, and every compile succeeded. |

## Left out

- Script loading and global probing (`src/ar/tracker.ts:38-46, 186-317`):
  CDN loading, the MindAR URL list and the search for the engine constructor.
  These are collapsed into the `EnginePhase` outcome.
- Destructuring of the engine's renderer, scene and camera (tracker.ts
  334-341) is treated as unable to throw. Those handles are folded into the
  one engine handle.
- Three.js meshes, textures, materials, positions, the render callback and the
  z-index styling. A plane is an identity with a target, an artwork and an
  aspect source.
- The numeric plane scale (`h / w`, floating point). Only which source
  supplies the aspect is modelled.
- Overlay.CalcPlaneScale: requires a nonzero video height when the video
  supplies the aspect. The source would divide by zero into `Infinity` or
  `NaN`, which `real` cannot represent.
- Asynchrony: promise timing, the 300 ms waits, and the mock found event three
  seconds after a successful camera fallback. A stop racing an in-flight
  start is also left out. Events are discrete steps.
- The facade `anchor` callbacks (`this.anchor.onTargetFound` and
  `onTargetLost`) belong to the caller and change no tracker state.
- The result of `video.play()` and the `error` listener only log. The
  `canPlayType` probe only logs.
- The `stop` guard against `this.opts.video` compares with a field the
  options never carry, so it protects nothing. The artwork videos are
  assumed not to be children of the container. The model tracks only the
  fallback's camera feeds. The engine's injected canvases and videos, which
  stop also removes, are not modelled.
- Tracker.Stop: the engine is assumed to fire no found or lost event after
  `stop`. The source only empties its `anchors` record (tracker.ts:567). The
  handlers it installed on the engine's anchors (tracker.ts:354, 430) close
  over the engine anchor and the index. When `mindarThree.stop()` threw
  (tracker.ts:528-535), the engine may keep firing them. They would then
  create and attach planes, record them, and reveal and play the artwork
  video. In the model, `Found` and `Lost` on an index with no anchor are
  no-ops.
- Routing.VideoExt: the text of an inherited `Object.prototype` member is
  written as V8 spells it (`function toString() { [native code] }`). Other
  engines may space it differently. Getters that a host adds to
  `Object.prototype` are not modelled.
- The DOM cleanup in `stop` (tracker.ts:538-556) is all or nothing through
  `domThrows`. In the source, a throw partway through the removal loop
  leaves the earlier elements removed.
- The catch-all in `createVideoPlane` (tracker.ts:166-168) is not modelled.
  A Three.js constructor throwing there would abandon the plane after the
  dimension cache was read. The model treats plane creation as unable to
  throw.
- A MindAR anchor is assumed to start with a hidden, empty group.
- Filesystem:
  - paths are case-sensitive;
  - a source candidate that exists is a readable directory;
  - `path.join` and `path.resolve` become `dir + "/" + name`;
  - `mkdirSync` and the compiler's console output are not modelled beyond
    the `madeTargetsDir` flag.
- `console` logging everywhere.
- `src/app.ts`, `vite.config.ts`, `playwright.config.ts` and the end-to-end
  test: these are DOM wiring, dev-server middleware and test harness.
- `tests/unit/routing.spec.ts` expects `resolveAssetUrls('/art/foo')` to strip
  the `/art/` prefix. The code interpolates its argument verbatim, and the
  model follows the code (`Routing.ResolveAssetUrls`).

=== FILE: camera.dfy ===
/** Camera acquisition and release (src/ar/camera.ts). The host's
    getUserMedia is an abstract answer supplied by the caller. */
module Camera {
  import opened Wrappers

  /** A rejection value as the host delivers it: a falsy value, or an object
      whose `name` property may be missing. */
  datatype HostError = Falsy | Raised(name: Option<string>)

  datatype Facing = Environment | User

  /** The constraints of one request: a video facing mode, and audio. */
  datatype Constraints = Constraints(facingMode: Facing, audio: bool)

  datatype Track = Track(id: nat, live: bool)

  datatype Stream = Stream(tracks: seq<Track>)

  /** What the host answers to one getUserMedia request. */
  datatype HostAnswer = Granted(stream: Stream) | Refused(error: HostError)

  /** How startCamera fails: with a new Error carrying a fixed message, or by
      rethrowing the host's rejection unchanged. */
  datatype Failure = Thrown(message: string) | Rethrown(error: HostError)

  /** One call of startCamera: the request made (none when unsupported) and
      its outcome. */
  datatype Acquisition = Acquisition(request: Option<Constraints>, result: Result<Stream, Failure>)

  const UnsupportedMessage: string := "getUserMedia not supported"
  const PermissionDeniedMessage: string := "camera-permission-denied"
  const NotFoundMessage: string := "camera-not-found"

  /** The error taxonomy callers see. */
  datatype Kind = Unsupported | PermissionDenied | DeviceNotFound | Other

  /** The kind a startCamera failure belongs to. */
  function KindOf(f: Failure): Kind {
    if f == Thrown(UnsupportedMessage) then Unsupported
    else if f == Thrown(PermissionDeniedMessage) then PermissionDenied
    else if f == Thrown(NotFoundMessage) then DeviceNotFound
    else Other
  }

  /** The rejection names that mean the user or platform refused access. */
  predicate IsPermissionName(e: HostError) {
    e.Raised? && (e.name == Some("NotAllowedError") || e.name == Some("PermissionDeniedError"))
  }

  /** The rejection names that mean no suitable camera exists. */
  predicate IsNotFoundName(e: HostError) {
    e.Raised? && (e.name == Some("NotFoundError") || e.name == Some("OverconstrainedError"))
  }

  /** Classification of a host rejection into the failure startCamera throws. */
  function Normalize(e: HostError): (f: Failure)
    ensures KindOf(f) == PermissionDenied <==> IsPermissionName(e)
    ensures KindOf(f) == DeviceNotFound <==> IsNotFoundName(e)
    ensures KindOf(f) != Unsupported
    ensures KindOf(f) == Other <==> f == Rethrown(e)
  {
    if e.Raised? && (e.name == Some("NotAllowedError") || e.name == Some("PermissionDeniedError")) then
      Thrown(PermissionDeniedMessage)
    else if e.Raised? && (e.name == Some("NotFoundError") || e.name == Some("OverconstrainedError")) then
      Thrown(NotFoundMessage)
    else
      Rethrown(e)
  }

  /** startCamera: without getUserMedia, fail before any request; otherwise
      request video with the given facing mode (rear camera by default) and no
      audio, and normalise a rejection. */
  function StartCamera(supported: bool, facing: Option<Facing>, host: HostAnswer): (a: Acquisition)
    ensures !supported ==> a.request.None? && a.result == Failure(Thrown(UnsupportedMessage))
    ensures supported ==> a.request == Some(Constraints(facing.GetOr(Environment), false))
    ensures supported && host.Granted? ==> a.result == Success(host.stream)
    ensures supported && host.Refused? ==> a.result.Failure? && KindOf(a.result.error) != Unsupported
    ensures supported && host.Refused? ==> a.result == Failure(Normalize(host.error))
    ensures supported && host.Refused? ==> (KindOf(a.result.error) == PermissionDenied <==> IsPermissionName(host.error))
    ensures supported && host.Refused? ==> (KindOf(a.result.error) == DeviceNotFound <==> IsNotFoundName(host.error))
    ensures supported && host.Refused? ==> (KindOf(a.result.error) == Other <==> a.result.error == Rethrown(host.error))
    ensures a.result.Failure? && KindOf(a.result.error) == Unsupported <==> !supported
  {
    if !supported then
      Acquisition(None, Failure(Thrown(UnsupportedMessage)))
    else
      var request := Constraints(facing.GetOr(Environment), false);
      match host
      case Granted(stream) => Acquisition(Some(request), Success(stream))
      case Refused(e) => Acquisition(Some(request), Failure(Normalize(e)))
  }

  /** The permission test's scenario: a NotAllowedError rejection surfaces as
      camera-permission-denied, and every unnamed or falsy rejection is
      passed through. */
  lemma PermissionScenario(facing: Option<Facing>)
    ensures StartCamera(true, facing, Refused(Raised(Some("NotAllowedError")))).result
            == Failure(Thrown(PermissionDeniedMessage))
    ensures StartCamera(true, facing, Refused(Falsy)).result == Failure(Rethrown(Falsy))
    ensures StartCamera(true, facing, Refused(Raised(None))).result == Failure(Rethrown(Raised(None)))
  {
  }

  /** stopCamera: stop every track of the stream, in order; no stream, no effect. */
  method StopCamera(stream: Option<Stream>) returns (after: Option<Stream>)
    ensures after.Some? <==> stream.Some?
    ensures stream.Some? ==> |after.value.tracks| == |stream.value.tracks|
    ensures stream.Some? ==> forall k :: 0 <= k < |after.value.tracks| ==>
              after.value.tracks[k] == stream.value.tracks[k].(live := false)
  {
    if stream.None? {
      return None;
    }
    var tracks := stream.value.tracks;
    var stopped: seq<Track> := [];
    for k := 0 to |tracks|
      invariant |stopped| == k
      invariant forall j :: 0 <= j < k ==> stopped[j] == tracks[j].(live := false)
    {
      stopped := stopped + [tracks[k].(live := false)];
    }
    after := Some(Stream(stopped));
  }

  /** Releasing is idempotent: releasing a released stream changes nothing. */
  method StopCameraTwice(stream: Option<Stream>) returns (once: Option<Stream>, twice: Option<Stream>)
    ensures once == twice
  {
    once := StopCamera(stream);
    twice := StopCamera(once);
    if stream.Some? {
      assert once.value.tracks == twice.value.tracks;
    }
  }
}

=== FILE: compile_targets.dfy ===
/** The target compiler script (scripts/compile-targets.mjs): choose a
    source directory, compile every source image into a `.mind` target with
    an external compiler, and report failures; or, without `--compile`, run
    the pairing check.

    The filesystem is the directory map of `ContentCheck`; the external
    compiler is an oracle giving the exit status of each job (`None` when the
    process has no status, e.g. it was killed). */
module CompileTargets {
  import opened Wrappers
  import opened Strings
  import ContentCheck

  /** The source directories tried, in order. */
  const CandidateSrcDirs: seq<string> := ["targets-src", "src/assets/target"]

  /** The first candidate that exists, if any. */
  function PickSrcDir(candidates: seq<string>, dirs: ContentCheck.Dirs): (d: Option<string>)
    ensures d.Some? ==> d.value in dirs
    ensures d.Some? ==> exists k :: 0 <= k < |candidates| && candidates[k] == d.value
                                    && forall j :: 0 <= j < k ==> candidates[j] !in dirs
    ensures d.None? <==> forall k :: 0 <= k < |candidates| ==> candidates[k] !in dirs
    decreases |candidates|
  {
    if |candidates| == 0 then None
    else if candidates[0] in dirs then Some(candidates[0])
    else
      var rest := PickSrcDir(candidates[1..], dirs);
      if rest.Some? then
        var k :| 0 <= k < |candidates[1..]| && candidates[1..][k] == rest.value
                 && forall j :: 0 <= j < k ==> candidates[1..][j] !in dirs;
        assert candidates[k + 1] == rest.value;
        rest
      else rest
  }

  // ---------------------------------------------------------------------
  // File names

  /** ASCII lower-casing, the folding a non-Unicode case-insensitive
      regular expression applies to these letters. */
  function LowerChar(c: char): (l: char)
    ensures 'A' <= c <= 'Z' ==> l as int == c as int + 32
    ensures !('A' <= c <= 'Z') ==> l == c
  {
    if 'A' <= c <= 'Z' then (c as int + 32) as char else c
  }

  function Lower(s: string): string {
    seq(|s|, k requires 0 <= k < |s| => LowerChar(s[k]))
  }

  /** The image extensions, written in lower case. */
  const ImageExts: set<string> := {".png", ".jpg", ".jpeg"}

  /** `/\.(png|jpe?g)$/i`: the name ends in `.png`, `.jpg` or `.jpeg`, in
      any letter case. */
  predicate IsSourceImage(f: string) {
    exists e :: e in ImageExts && EndsWith(Lower(f), e)
  }

  /** Position of the last `.` in `f[..upto]`, if any. */
  function LastDot(f: string, upto: nat): (k: Option<nat>)
    requires upto <= |f|
    ensures k.Some? ==> k.value < upto && f[k.value] == '.'
    ensures k.Some? ==> forall j :: k.value < j < upto ==> f[j] != '.'
    ensures k.None? ==> forall j :: 0 <= j < upto ==> f[j] != '.'
    decreases upto
  {
    if upto == 0 then None
    else if f[upto - 1] == '.' then Some(upto - 1)
    else LastDot(f, upto - 1)
  }

  /** No dot from position `from` to the end. */
  predicate DotFree(f: string, from: nat) {
    forall j :: from <= j < |f| ==> f[j] != '.'
  }

  /** `/\.[^.]+$/` removed: the last extension is stripped when the last dot
      is followed by at least one character; otherwise the name is kept. */
  function BaseName(f: string): (b: string)
    ensures |b| <= |f| && b == f[..|b|]
    ensures |b| < |f| ==> |f| - |b| >= 2 && f[|b|] == '.' && DotFree(f, |b| + 1)
    ensures |b| == |f| ==> forall k :: 0 <= k < |f| - 1 && f[k] == '.' ==> !DotFree(f, k + 1)
  {
    var d := LastDot(f, |f|);
    if d.Some? && d.value < |f| - 1 then f[..d.value]
    else
      assert forall k :: 0 <= k < |f| - 1 && f[k] == '.' ==> d.Some? && d.value == |f| - 1;
      f
  }

  /** A name whose lower-cased form ends in a dot followed by dot-free
      characters has its dot in the same place. */
  lemma DotTail(f: string, e: string)
    requires EndsWith(Lower(f), e) && |e| >= 2 && e[0] == '.'
    requires forall k :: 1 <= k < |e| ==> e[k] != '.'
    ensures f[|f| - |e|] == '.' && DotFree(f, |f| - |e| + 1)
  {
    var dot := |f| - |e|;
    assert Lower(f)[dot] == e[0];
    forall j | dot < j < |f|
      ensures f[j] != '.'
    {
      assert Lower(f)[j] == e[j - dot];
    }
  }

  /** The base name cuts at the last dot when a character follows it. */
  lemma BaseNameAt(f: string, dot: nat)
    requires dot < |f| - 1 && f[dot] == '.' && DotFree(f, dot + 1)
    ensures BaseName(f) == f[..dot]
  {
    var b := BaseName(f);
    if |b| == |f| {
      assert false;
    } else if |b| < dot {
      assert false;
    } else if |b| > dot {
      assert false;
    }
  }

  /** Each image extension is a dot followed by dot-free characters. */
  lemma ImageExtShape(e: string)
    requires e in ImageExts
    ensures |e| >= 2 && e[0] == '.'
    ensures forall k :: 1 <= k < |e| ==> e[k] != '.'
  {
  }

  /** Lower-casing commutes with taking a suffix. */
  lemma LowerSuffix(f: string, k: nat)
    requires k <= |f|
    ensures Lower(f[k..]) == Lower(f)[k..]
  {
  }

  /** A name ending (in any letter case) in image extension `e` has the
      name before `e` as its base name. */
  lemma ImageBaseNameAt(f: string, e: string)
    requires e in ImageExts && EndsWith(Lower(f), e)
    ensures |e| <= |f| && BaseName(f) == f[..|f| - |e|]
    ensures Lower(f[|f| - |e|..]) == e
  {
    ImageExtShape(e);
    DotTail(f, e);
    BaseNameAt(f, |f| - |e|);
    LowerSuffix(f, |f| - |e|);
  }

  /** A name is a source image exactly when its base name is shorter than
      the name and what follows it is an image extension in some letter case. */
  lemma ImageBaseName(f: string)
    ensures IsSourceImage(f) <==> |BaseName(f)| < |f| && Lower(f[|BaseName(f)|..]) in ImageExts
    ensures BaseName(f) + f[|BaseName(f)|..] == f
  {
    if IsSourceImage(f) {
      var e :| e in ImageExts && EndsWith(Lower(f), e);
      ImageBaseNameAt(f, e);
    }
    var b := BaseName(f);
    if |b| < |f| && Lower(f[|b|..]) in ImageExts {
      LowerSuffix(f, |b|);
      assert EndsWith(Lower(f), Lower(f[|b|..]));
    }
  }

  /** Where a source image's target is written. */
  function OutputPath(targetsDir: string, f: string): string {
    targetsDir + "/" + BaseName(f) + ContentCheck.MindExt
  }

  /** The output name of an image is a target the pairing check recognises,
      and its id is the image's base name. */
  lemma OutputIsTarget(f: string)
    ensures EndsWith(BaseName(f) + ContentCheck.MindExt, ContentCheck.MindExt)
    ensures ContentCheck.StripMind(BaseName(f) + ContentCheck.MindExt) == BaseName(f)
  {
    ContentCheck.StripMindInverse(BaseName(f));
  }

  /** Two images that differ only in their extension write the same target. */
  lemma ExtensionOnlyDifferenceCollides()
    ensures IsSourceImage("ventus.png") && IsSourceImage("ventus.JPG")
    ensures OutputPath(ContentCheck.TargetsDir, "ventus.png") == OutputPath(ContentCheck.TargetsDir, "ventus.JPG")
  {
    assert Lower("ventus.png")[6..] == ".png";
    assert Lower("ventus.JPG")[6..] == ".jpg";
    BaseNameAt("ventus.png", 6);
    BaseNameAt("ventus.JPG", 6);
  }

  // ---------------------------------------------------------------------
  // Compiling

  /** One run of the external compiler. */
  datatype Job = Job(input: string, output: string)

  /** The source images of a listing, in listing order. */
  function Images(names: seq<string>): (imgs: seq<string>)
    ensures forall f :: f in imgs <==> f in names && IsSourceImage(f)
    ensures Subsequence(imgs, names)
    ensures forall f :: multiset(imgs)[f] == if IsSourceImage(f) then multiset(names)[f] else 0
    decreases |names|
  {
    if |names| == 0 then []
    else
      var rest := Images(names[..|names| - 1]);
      var last := names[|names| - 1];
      assert names == names[..|names| - 1] + [last];
      if IsSourceImage(last) then
        assert (rest + [last])[..|rest|] == rest;
        rest + [last]
      else rest
  }

  function JobFor(srcDir: string, targetsDir: string, f: string): Job {
    Job(srcDir + "/" + f, OutputPath(targetsDir, f))
  }

  /** Reference count of the jobs whose status is not exactly 0. */
  function Failures(jobs: seq<Job>, status: Job -> Option<int>): (f: nat)
    ensures f <= |jobs|
    decreases |jobs|
  {
    if |jobs| == 0 then 0
    else Failures(jobs[..|jobs| - 1], status) + (if status(jobs[|jobs| - 1]) == Some(0) then 0 else 1)
  }

  lemma FailuresSnoc(jobs: seq<Job>, job: Job, status: Job -> Option<int>)
    ensures Failures(jobs + [job], status) == Failures(jobs, status) + (if status(job) == Some(0) then 0 else 1)
  {
    assert (jobs + [job])[..|jobs|] == jobs;
  }

  /** Some job failed exactly when the failure count is positive. */
  lemma {:induction false} FailuresPositive(jobs: seq<Job>, status: Job -> Option<int>)
    ensures Failures(jobs, status) > 0 <==> exists k :: 0 <= k < |jobs| && status(jobs[k]) != Some(0)
    ensures Failures(jobs, status) <= |jobs|
    decreases |jobs|
  {
    if |jobs| > 0 {
      var init := jobs[..|jobs| - 1];
      FailuresPositive(init, status);
      if exists k :: 0 <= k < |jobs| && status(jobs[k]) != Some(0) {
        var k :| 0 <= k < |jobs| && status(jobs[k]) != Some(0);
        if k < |jobs| - 1 {
          assert init[k] == jobs[k];
        }
      }
      if exists k :: 0 <= k < |init| && status(init[k]) != Some(0) {
        var k :| 0 <= k < |init| && status(init[k]) != Some(0);
        assert jobs[k] == init[k];
      }
    }
  }

  /** What a compile run did: its exit status, whether it created the
      targets directory, the jobs it ran in order, and how many failed. */
  datatype CompileRun = CompileRun(exitCode: int, madeTargetsDir: bool, jobs: seq<Job>, failures: nat)

  /** `compileAll`. With no source directory it fails before touching
      anything; otherwise it creates the targets directory if missing, then
      fails if there is no source image, else runs one job per image in
      listing order and fails exactly when some job did not exit with 0. */
  method CompileAll(dirs: ContentCheck.Dirs, status: Job -> Option<int>) returns (run: CompileRun)
    ensures PickSrcDir(CandidateSrcDirs, dirs).None? ==> run == CompileRun(1, false, [], 0)
    ensures PickSrcDir(CandidateSrcDirs, dirs).Some? ==> run.madeTargetsDir == (ContentCheck.TargetsDir !in dirs)
    ensures PickSrcDir(CandidateSrcDirs, dirs).Some? ==>
              var src := PickSrcDir(CandidateSrcDirs, dirs).value;
              var imgs := Images(dirs[src]);
              && |run.jobs| == |imgs|
              && (forall k :: 0 <= k < |imgs| ==> run.jobs[k] == JobFor(src, ContentCheck.TargetsDir, imgs[k]))
              && (|imgs| == 0 ==> run.exitCode == 1)
              && (|imgs| > 0 ==> (run.exitCode == 0 <==> forall k :: 0 <= k < |run.jobs| ==> status(run.jobs[k]) == Some(0)))
    ensures run.exitCode == 0 || run.exitCode == 1
    ensures run.failures == Failures(run.jobs, status)
  {
    var picked := PickSrcDir(CandidateSrcDirs, dirs);
    if picked.None? {
      return CompileRun(1, false, [], 0);
    }
    var src := picked.value;
    var made := ContentCheck.TargetsDir !in dirs;
    var imgs := Images(dirs[src]);
    if |imgs| == 0 {
      return CompileRun(1, made, [], 0);
    }
    var jobs, failures := RunJobs(src, imgs, status);
    run := CompileRun(if failures > 0 then 1 else 0, made, jobs, failures);
  }

  /** Run one job per image, in order, counting the ones that fail. */
  method RunJobs(src: string, imgs: seq<string>, status: Job -> Option<int>) returns (jobs: seq<Job>, failures: nat)
    ensures |jobs| == |imgs|
    ensures forall k :: 0 <= k < |imgs| ==> jobs[k] == JobFor(src, ContentCheck.TargetsDir, imgs[k])
    ensures failures == Failures(jobs, status)
    ensures failures > 0 <==> exists k :: 0 <= k < |jobs| && status(jobs[k]) != Some(0)
  {
    jobs := seq(|imgs|, k requires 0 <= k < |imgs| => JobFor(src, ContentCheck.TargetsDir, imgs[k]));
    failures := CountFailures(jobs, status);
  }

  /** Run the jobs in order, counting those whose status is not exactly 0. */
  method CountFailures(jobs: seq<Job>, status: Job -> Option<int>) returns (failures: nat)
    ensures failures == Failures(jobs, status)
    ensures failures > 0 <==> exists k :: 0 <= k < |jobs| && status(jobs[k]) != Some(0)
  {
    failures := 0;
    for k := 0 to |jobs|
      invariant failures == Failures(jobs[..k], status)
    {
      FailuresSnoc(jobs[..k], jobs[k], status);
      assert jobs[..k + 1] == jobs[..k] + [jobs[k]];
      if status(jobs[k]) != Some(0) {
        failures := failures + 1;
      }
    }
    assert jobs[..|jobs|] == jobs;
    FailuresPositive(jobs, status);
  }

  // ---------------------------------------------------------------------
  // Dispatch

  datatype Mode = Compile | VerifyOnly

  /** `--compile` anywhere among the arguments selects compiling. */
  function SelectMode(argv: seq<string>): (m: Mode)
    ensures m == Compile <==> exists k :: 0 <= k < |argv| && argv[k] == "--compile"
  {
    if "--compile" in argv then Compile else VerifyOnly
  }

  /** The script: compile, or check the pairs, and exit with its status. */
  method Dispatch(argv: seq<string>, dirs: ContentCheck.Dirs, status: Job -> Option<int>) returns (code: int)
    ensures code == 0 || code == 1
    ensures SelectMode(argv) == VerifyOnly ==>
              (code == 0 <==> forall t :: t in ContentCheck.Targets(ContentCheck.Listing(dirs, ContentCheck.TargetsDir)) ==>
                                 ContentCheck.MediaDir in dirs && ContentCheck.MediaName(t) in dirs[ContentCheck.MediaDir])
    ensures SelectMode(argv) == Compile ==>
              (code == 0 <==> && PickSrcDir(CandidateSrcDirs, dirs).Some?
                              && var src := PickSrcDir(CandidateSrcDirs, dirs).value;
                                 var imgs := Images(dirs[src]);
                                 && |imgs| > 0
                                 && forall k :: 0 <= k < |imgs| ==> status(JobFor(src, ContentCheck.TargetsDir, imgs[k])) == Some(0))
  {
    if SelectMode(argv) == Compile {
      var run := CompileAll(dirs, status);
      code := run.exitCode;
    } else {
      var missing;
      missing, code := ContentCheck.VerifyContent(dirs);
    }
  }
}

=== FILE: content_check.dfy ===
/** The target/media pairing check (scripts/verify-content.mjs, repeated as
    `verifyPairs` in scripts/compile-targets.mjs).

    The filesystem is a map from a directory path to its listing, in the
    order the host lists it; a path that is not a key does not exist. */
module ContentCheck {
  import opened Wrappers
  import opened Strings
  import Routing

  /** Directory path to the names it holds. */
  type Dirs = map<string, seq<string>>

  const TargetsDir: string := "public/targets"
  const MediaDir: string := "public/media"
  const MindExt: string := ".mind"
  const Mp4Ext: string := ".mp4"

  /** The listing of a directory, or none when it does not exist. */
  function Listing(dirs: Dirs, dir: string): (l: Option<seq<string>>)
    ensures l.Some? <==> dir in dirs
    ensures l.Some? ==> l.value == dirs[dir]
  {
    if dir in dirs then Some(dirs[dir]) else None
  }

  /** The names under a directory that exist; none when it does not. */
  function Present(dirs: Dirs, dir: string): (names: set<string>)
    ensures forall n :: n in names <==> dir in dirs && n in dirs[dir]
  {
    if dir in dirs then set n | n in dirs[dir] else {}
  }

  /** The names ending in `.mind`, in listing order. */
  function MindNames(names: seq<string>): (ts: seq<string>)
    ensures forall t :: t in ts <==> t in names && EndsWith(t, MindExt)
    ensures |ts| <= |names|
    ensures Subsequence(ts, names)
    ensures forall t :: multiset(ts)[t] == if EndsWith(t, MindExt) then multiset(names)[t] else 0
    decreases |names|
  {
    if |names| == 0 then []
    else
      var rest := MindNames(names[..|names| - 1]);
      var last := names[|names| - 1];
      assert names == names[..|names| - 1] + [last];
      if EndsWith(last, MindExt) then
        assert (rest + [last])[..|rest|] == rest;
        rest + [last]
      else rest
  }

  /** The targets: the `.mind` names of the listing, none when the directory
      is missing. */
  function Targets(listing: Option<seq<string>>): (ts: seq<string>)
    ensures forall t :: t in ts <==> listing.Some? && t in listing.value && EndsWith(t, MindExt)
    ensures listing.None? ==> ts == []
  {
    if listing.Some? then MindNames(listing.value) else []
  }

  /** A target's id: the name with one trailing `.mind` removed (a name
      without it is left alone). */
  function StripMind(t: string): (id: string)
    ensures EndsWith(t, MindExt) ==> id + MindExt == t
    ensures !EndsWith(t, MindExt) ==> id == t
  {
    if EndsWith(t, MindExt) then t[..|t| - |MindExt|] else t
  }

  /** Removing `.mind` from `id + ".mind"` gives back `id`. */
  lemma StripMindInverse(id: string)
    ensures StripMind(id + MindExt) == id
  {
    assert EndsWith(id + MindExt, MindExt);
  }

  /** The media name a target needs. */
  function MediaName(t: string): string {
    StripMind(t) + Mp4Ext
  }

  predicate Paired(t: string, media: set<string>) {
    MediaName(t) in media
  }

  /** Reference answer: the ids of the targets without media, in order. */
  function Unpaired(targets: seq<string>, media: set<string>): (ids: seq<string>)
    ensures |ids| <= |targets|
    decreases |targets|
  {
    if |targets| == 0 then []
    else
      var last := targets[|targets| - 1];
      Unpaired(targets[..|targets| - 1], media) + (if Paired(last, media) then [] else [StripMind(last)])
  }

  /** Every reported id comes from a target without media. */
  lemma {:induction false} UnpairedWitness(targets: seq<string>, media: set<string>, id: string) returns (t: string)
    requires id in Unpaired(targets, media)
    ensures t in targets && !Paired(t, media) && StripMind(t) == id
    decreases |targets|
  {
    var init := targets[..|targets| - 1];
    var last := targets[|targets| - 1];
    assert targets == init + [last];
    if id in Unpaired(init, media) {
      t := UnpairedWitness(init, media, id);
    } else {
      t := last;
    }
  }

  /** Every target without media is reported. */
  lemma {:induction false} UnpairedComplete(targets: seq<string>, media: set<string>, t: string)
    requires t in targets && !Paired(t, media)
    ensures StripMind(t) in Unpaired(targets, media)
    decreases |targets|
  {
    var init := targets[..|targets| - 1];
    var last := targets[|targets| - 1];
    assert targets == init + [last];
    if t != last {
      UnpairedComplete(init, media, t);
    }
  }

  /** An id is reported exactly when some target with that id lacks media. */
  lemma UnpairedReports(targets: seq<string>, media: set<string>, id: string)
    ensures id in Unpaired(targets, media) <==> exists t :: t in targets && !Paired(t, media) && StripMind(t) == id
  {
    if id in Unpaired(targets, media) {
      var t := UnpairedWitness(targets, media, id);
    }
    if exists t :: t in targets && !Paired(t, media) && StripMind(t) == id {
      var t :| t in targets && !Paired(t, media) && StripMind(t) == id;
      UnpairedComplete(targets, media, t);
    }
  }

  /** Nothing is reported exactly when every target is paired. */
  lemma {:induction false} UnpairedEmpty(targets: seq<string>, media: set<string>)
    ensures Unpaired(targets, media) == [] <==> forall t :: t in targets ==> Paired(t, media)
    decreases |targets|
  {
    if |targets| > 0 {
      var init := targets[..|targets| - 1];
      UnpairedEmpty(init, media);
      assert targets == init + [targets[|targets| - 1]];
    }
  }

  /** The check: every target is examined (each missing one reported), and
      it passes exactly when every target's `{id}.mp4` is present. */
  method CheckPairs(targets: seq<string>, media: set<string>) returns (missing: seq<string>, ok: bool)
    ensures missing == Unpaired(targets, media)
    ensures ok <==> forall t :: t in targets ==> Paired(t, media)
    ensures ok <==> missing == []
  {
    missing := [];
    ok := true;
    for k := 0 to |targets|
      invariant missing == Unpaired(targets[..k], media)
      invariant ok <==> missing == []
    {
      var t := targets[k];
      UnpairedSnoc(targets[..k], t, media);
      assert targets[..k + 1] == targets[..k] + [t];
      if !Paired(t, media) {
        missing := missing + [StripMind(t)];
        ok := false;
      }
    }
    assert targets[..|targets|] == targets;
    UnpairedEmpty(targets, media);
  }

  lemma UnpairedSnoc(ts: seq<string>, t: string, media: set<string>)
    ensures Unpaired(ts + [t], media) == Unpaired(ts, media) + (if Paired(t, media) then [] else [StripMind(t)])
  {
    assert (ts + [t])[..|ts|] == ts;
  }

  /** The process exit status of the check. */
  function ExitStatus(ok: bool): (code: int)
    ensures code == 0 <==> ok
    ensures code == 0 || code == 1
  {
    if ok then 0 else 1
  }

  /** The whole script over a filesystem: list the targets directory, look
      for each target's video in the media directory, and exit. */
  method VerifyContent(dirs: Dirs) returns (missing: seq<string>, code: int)
    ensures code == 0 || code == 1
    ensures code == 0 <==> forall t :: t in Targets(Listing(dirs, TargetsDir)) ==>
                              MediaDir in dirs && MediaName(t) in dirs[MediaDir]
    ensures forall id :: id in missing <==>
              exists t :: t in Targets(Listing(dirs, TargetsDir)) && StripMind(t) == id
                          && MediaName(t) !in Present(dirs, MediaDir)
  {
    var ok;
    missing, ok := CheckPairs(Targets(Listing(dirs, TargetsDir)), Present(dirs, MediaDir));
    forall id
      ensures id in missing <==>
                exists t :: t in Targets(Listing(dirs, TargetsDir)) && StripMind(t) == id
                            && MediaName(t) !in Present(dirs, MediaDir)
    {
      UnpairedReports(Targets(Listing(dirs, TargetsDir)), Present(dirs, MediaDir), id);
    }
    code := ExitStatus(ok);
  }

  /** Only a lower-case `.mp4` pairs: an upper-case `.MP4` beside the target
      does not satisfy the check. */
  lemma UpperCaseMp4DoesNotPair(id: string)
    ensures !Paired(id + MindExt, {id + ".MP4"})
    ensures Paired(id + MindExt, {id + Mp4Ext})
  {
    StripMindInverse(id);
    assert (id + ".MP4")[|id| + 1] == 'M';
    assert (id + Mp4Ext)[|id| + 1] == 'm';
  }

  /** The application's video location for a known artwork names exactly
      the file this check looks for, except for `metatation`, whose video
      the application requests with the upper-case `.MP4` extension. */
  lemma AppVideoMatchesCheck(id: string)
    requires id in Routing.Artworks
    ensures Routing.ResolveAssetUrls(id).video == "/media/" + MediaName(id + MindExt) <==> id != "metatation"
  {
    StripMindInverse(id);
    var video := Routing.ResolveAssetUrls(id).video;
    var ext := Routing.VideoExt(id);
    assert video == "/media/" + id + ext;
    if video == "/media/" + id + Mp4Ext {
      assert ext == video[|video| - 4..] == Mp4Ext;
    }
  }
}

=== FILE: fallback.dfy ===
/** The delayed retry affordance (src/ui/fallback.ts). The host's timers
    are modelled by handles: `Arm` schedules one, `Fire` delivers one, and
    the host keeps every pending timer until it fires or is cleared. */
module Fallback {
  import opened Wrappers

  datatype Phase = Idle | Offer | Playing

  /** The controller's `state` and `timeout` fields, the timers the host
      still holds for it (handle to delay), the next handle the host will
      issue, and how many times the show and play callbacks have run. */
  datatype Controller = Controller(
    phase: Phase,
    timeout: Option<nat>,
    pending: map<nat, int>,
    nextHandle: nat,
    shown: nat,
    played: nat)

  /** The delay `arm` uses when called without one. */
  const DefaultDelay: int := 2000

  /** Every pending timer is the one the controller holds, so at most one is
      pending; handles are positive (so always truthy) and below the next
      one the host will issue. */
  ghost predicate Valid(c: Controller) {
    && c.nextHandle >= 1
    && (c.timeout.Some? ==> 1 <= c.timeout.value < c.nextHandle)
    && (forall h :: h in c.pending ==> c.timeout == Some(h))
  }

  /** The invariant leaves room for one pending timer at most. */
  lemma AtMostOnePending(c: Controller)
    requires Valid(c)
    ensures |c.pending| <= 1
    ensures c.pending != map[] ==> c.timeout.Some? && c.pending.Keys == {c.timeout.value}
  {
    if c.pending != map[] {
      var h :| h in c.pending;
      assert c.pending.Keys == {c.timeout.value};
    }
  }

  /** A fresh controller: idle, nothing pending. */
  function Init(): (c: Controller)
    ensures Valid(c)
    ensures c.phase == Idle && c.pending == map[] && c.shown == 0 && c.played == 0
  {
    Controller(Idle, None, map[], 1, 0, 0)
  }

  /** Clear the held timer, if the held handle is truthy: the host drops it
      (clearing a timer that already fired does nothing), and the field is
      emptied. */
  function Cancel(c: Controller): (r: Controller)
    requires Valid(c)
    ensures Valid(r)
    ensures r.pending == map[] && r.timeout.None?
    ensures r.phase == c.phase && r.shown == c.shown && r.played == c.played
    ensures c.timeout.None? ==> r == c
    ensures r.nextHandle == c.nextHandle
  {
    match c.timeout
    case Some(h) =>
      if h != 0 then
        AtMostOnePending(c);
        c.(timeout := None, pending := c.pending - {h})
      else c
    case None => c
  }

  /** Cancel the held timer, then schedule a new one with the given delay
      (2000 ms by default) and hold it; the phase is left alone. */
  function Arm(c: Controller, delay: Option<int>): (r: Controller)
    requires Valid(c)
    ensures Valid(r)
    ensures r.pending == map[c.nextHandle := delay.GetOr(DefaultDelay)]
    ensures forall h :: h in c.pending ==> h !in r.pending
    ensures r.timeout == Some(c.nextHandle) && r.nextHandle == c.nextHandle + 1
    ensures r.phase == c.phase && r.shown == c.shown && r.played == c.played
  {
    var cleared := Cancel(c);
    var h := cleared.nextHandle;
    cleared.(timeout := Some(h), pending := cleared.pending[h := delay.GetOr(DefaultDelay)], nextHandle := h + 1)
  }

  /** The host delivers timer `h`. Only a pending timer runs, once: it offers
      the retry and calls the show callback. The `timeout` field is not
      cleared by the callback. */
  function Fire(c: Controller, h: nat): (r: Controller)
    requires Valid(c)
    ensures Valid(r)
    ensures h in c.pending ==> r.phase == Offer && r.shown == c.shown + 1 && r.pending == map[]
    ensures h !in c.pending ==> r == c
    ensures r.timeout == c.timeout && r.played == c.played && r.nextHandle == c.nextHandle
  {
    if h in c.pending then
      AtMostOnePending(c);
      c.(phase := Offer, shown := c.shown + 1, pending := c.pending - {h})
    else c
  }

  /** Enter playback, call the play callback, then drop any pending timer.
      The callback runs before the cancel: when it throws, the exception
      leaves `play` there and the timer stays pending. */
  function Play(c: Controller, playThrows: bool): (r: Controller)
    requires Valid(c)
    ensures Valid(r)
    ensures r.phase == Playing && r.played == c.played + 1 && r.shown == c.shown
    ensures !playThrows ==> r.pending == map[] && r.timeout.None?
    ensures playThrows ==> r.pending == c.pending && r.timeout == c.timeout
    ensures r.nextHandle == c.nextHandle
  {
    var playing := c.(phase := Playing, played := c.played + 1);
    if playThrows then playing else Cancel(playing)
  }

  /** Return to idle and drop any pending timer. */
  function Reset(c: Controller): (r: Controller)
    requires Valid(c)
    ensures Valid(r)
    ensures r.phase == Idle && r.shown == c.shown && r.played == c.played
    ensures r.pending == map[] && r.timeout.None?
    ensures r.nextHandle == c.nextHandle
  {
    Cancel(c.(phase := Idle))
  }

  /** What can happen to a controller. */
  datatype Event = ArmWith(delay: Option<int>) | FireTimer(handle: nat) | PlayNow(throws: bool) | ResetNow

  function Step(c: Controller, e: Event): (r: Controller)
    requires Valid(c)
    ensures Valid(r)
    ensures |r.pending| <= 1
    ensures r.nextHandle >= c.nextHandle
    ensures e.ArmWith? ==> r.pending.Keys == {c.nextHandle}
  {
    var r := match e
      case ArmWith(d) => Arm(c, d)
      case FireTimer(h) => Fire(c, h)
      case PlayNow(throws) => Play(c, throws)
      case ResetNow => Reset(c);
    AtMostOnePending(r);
    r
  }

  function Run(c: Controller, events: seq<Event>): (r: Controller)
    requires Valid(c)
    ensures Valid(r)
    ensures |r.pending| <= 1
    ensures r.nextHandle >= c.nextHandle
    decreases |events|
  {
    if |events| == 0 then AtMostOnePending(c); c else Run(Step(c, events[0]), events[1..])
  }

  /** Once nothing is pending, no sequence of timer deliveries, plays and
      resets ever calls the show callback: only a new `arm` can. */
  lemma {:induction false} NoShowWithoutArm(c: Controller, events: seq<Event>)
    requires Valid(c) && c.pending == map[]
    requires forall k :: 0 <= k < |events| ==> !events[k].ArmWith?
    ensures Run(c, events).shown == c.shown
    decreases |events|
  {
    if |events| > 0 {
      var next := Step(c, events[0]);
      assert next.shown == c.shown && next.pending == map[];
      assert forall k :: 0 <= k < |events[1..]| ==> events[1..][k] == events[k + 1];
      NoShowWithoutArm(next, events[1..]);
    }
  }

  /** Arming and then resetting before the delay elapses never shows the
      offer, whatever the host delivers afterwards. */
  lemma ArmThenResetNeverShows(c: Controller, d: Option<int>, fires: seq<nat>)
    requires Valid(c)
    ensures Run(Reset(Arm(c, d)), seq(|fires|, k requires 0 <= k < |fires| => FireTimer(fires[k]))).shown == c.shown
  {
    var events := seq(|fires|, k requires 0 <= k < |fires| => FireTimer(fires[k]));
    NoShowWithoutArm(Reset(Arm(c, d)), events);
  }

  /** Handles are never reused: whatever happens in between, a later `arm`
      leaves no handle issued before it pending. */
  lemma ArmIssuesUnusedHandle(c: Controller, events: seq<Event>, d: Option<int>, h: nat)
    requires Valid(c) && h < c.nextHandle
    ensures h !in Arm(Run(c, events), d).pending
  {
  }

  /** A play callback that throws leaves the armed timer pending, so its
      delivery still shows the offer and takes the controller out of
      Playing. */
  lemma ThrowingPlayStillOffers(c: Controller, d: Option<int>)
    requires Valid(c)
    ensures var armed := Arm(c, d);
            var h := c.nextHandle;
            && Play(armed, true).phase == Playing
            && Fire(Play(armed, true), h).phase == Offer
            && Fire(Play(armed, true), h).shown == c.shown + 1
            && Fire(Play(armed, false), h).phase == Playing
            && Fire(Play(armed, false), h).shown == c.shown
  {
  }

  /** Re-arming replaces the pending timer: the first one is cleared with the
      host, so it can no longer fire, and only the second shows the offer,
      once. */
  lemma RearmReplaces(c: Controller, d1: Option<int>, d2: Option<int>)
    requires Valid(c)
    ensures var first := c.nextHandle;
            var twice := Arm(Arm(c, d1), d2);
            var second := first + 1;
            && first in Arm(c, d1).pending
            && first !in twice.pending
            && twice.pending.Keys == {second}
            && Fire(twice, first) == twice
            && Fire(twice, second).shown == c.shown + 1
            && Fire(Fire(twice, second), second).shown == c.shown + 1
  {
  }
}

=== FILE: hints.dfy ===
/** The contextual hint strings (src/ui/hints.ts). */
module Hints {

  datatype HintKey = PointCamera | HoldSteady | ReduceGlare | RotatePortrait

  /** The text shown for each hint. */
  function HintText(key: HintKey): (text: string)
    ensures |text| > 0
  {
    match key
    case PointCamera => "Point your camera at the artwork"
    case HoldSteady => "Hold steady for a moment\U{2026}"
    case ReduceGlare => "Try reducing glare or moving closer"
    case RotatePortrait => "Rotate your phone to portrait"
  }

  /** The hint key a text belongs to, read back from the text alone. */
  function KeyOf(text: string): (key: HintKey)
    requires |text| > 0
  {
    if text[0] == 'P' then PointCamera
    else if text[0] == 'H' then HoldSteady
    else if text[0] == 'T' then ReduceGlare
    else RotatePortrait
  }

  /** Every key's text identifies the key: distinct hints never share a text. */
  lemma {:induction false} HintTextIdentifiesKey(key: HintKey)
    ensures KeyOf(HintText(key)) == key
  {
    match key
    case PointCamera => assert HintText(key)[0] == 'P';
    case HoldSteady => assert HintText(key)[0] == 'H';
    case ReduceGlare => assert HintText(key)[0] == 'T';
    case RotatePortrait => assert HintText(key)[0] == 'R';
  }

  /** The texts the interface shows, and that they are pairwise distinct. */
  lemma HintTexts(a: HintKey, b: HintKey)
    ensures HintText(PointCamera) == "Point your camera at the artwork"
    ensures HintText(HoldSteady) == "Hold steady for a moment\U{2026}"
    ensures HintText(ReduceGlare) == "Try reducing glare or moving closer"
    ensures HintText(RotatePortrait) == "Rotate your phone to portrait"
    ensures HintText(a) == HintText(b) ==> a == b
  {
    HintTextIdentifiesKey(a);
    HintTextIdentifiesKey(b);
  }
}

=== FILE: overlay.dfy ===
/** Plane sizing from an aspect hint (src/ar/overlay.ts). */
module Overlay {
  import opened Wrappers

  /** The native pixel size of a video element. */
  datatype VideoSize = VideoSize(videoWidth: real, videoHeight: real)

  /** The size of the 1 x 1 base plane after scaling. */
  datatype PlaneScale = PlaneScale(width: real, height: real)

  /** The plane keeps height 1 and takes its width from, in order: the
      supplied aspect (even 0, since only an absent aspect is replaced), the
      video's width over height, or 1. */
  function CalcPlaneScale(aspect: Option<real>, video: Option<VideoSize>): (s: PlaneScale)
    requires aspect.None? && video.Some? ==> video.value.videoHeight != 0.0
    ensures s.height == 1.0
    ensures aspect.Some? ==> s.width == aspect.value
    ensures aspect.None? && video.Some? ==> s.width * video.value.videoHeight == video.value.videoWidth
    ensures aspect.None? && video.None? ==> s.width == 1.0
  {
    var width := match aspect
      case Some(a) => a
      case None => if video.Some? then video.value.videoWidth / video.value.videoHeight else 1.0;
    PlaneScale(width, 1.0)
  }

  /** The unit test's property: the plane's width over height is the aspect. */
  lemma ScaleRatioIsAspect(aspect: real, video: Option<VideoSize>)
    ensures CalcPlaneScale(Some(aspect), video).width / CalcPlaneScale(Some(aspect), video).height == aspect
  {
  }

  /** Without a hint the plane has the video's proportions. */
  lemma ScaleFollowsVideo(w: real, h: real)
    requires h != 0.0
    ensures CalcPlaneScale(None, Some(VideoSize(w, h))).width / CalcPlaneScale(None, Some(VideoSize(w, h))).height == w / h
  {
  }
}

=== FILE: routing.dfy ===
/** Artwork ids, their asset locations, and deep-link parsing (src/routing/id.ts). */
module Routing {
  import opened Wrappers
  import opened Strings

  /** The nine known artwork ids, in the order the application enumerates them. */
  const Artworks: seq<string> := [
    "autopoiesis", "dollar-sign", "dreaming", "metatation", "on-and-off",
    "red-movement", "singularity", "sleepless-nights", "ventus"
  ]

  /** The id every unrecognised deep link falls back to. */
  const DefaultId: string := "autopoiesis"

  /** The extension used for an id that has no entry in the table. */
  const DefaultExt: string := ".mp4"

  /** Per-artwork video file extension; the lookup is case-sensitive and
      `metatation` is the one upper-case exception. */
  const VideoExtTable: map<string, string> := map[
    "autopoiesis" := ".mp4",
    "dollar-sign" := ".mp4",
    "dreaming" := ".mp4",
    "metatation" := ".MP4",
    "on-and-off" := ".mp4",
    "red-movement" := ".mp4",
    "singularity" := ".mp4",
    "sleepless-nights" := ".mp4",
    "ventus" := ".mp4"
  ]

  /** The names a plain object inherits from `Object.prototype`, each with the
      text the inherited member turns into inside a template string (the
      built-in functions in the spelling V8 gives them). Looking such a name
      up in the extension table finds the inherited member, which is not
      nullish, so the `.mp4` default does not apply. */
  const InheritedExt: map<string, string> := map[
    "constructor" := "function Object() { [native code] }",
    "__defineGetter__" := "function __defineGetter__() { [native code] }",
    "__defineSetter__" := "function __defineSetter__() { [native code] }",
    "hasOwnProperty" := "function hasOwnProperty() { [native code] }",
    "__lookupGetter__" := "function __lookupGetter__() { [native code] }",
    "__lookupSetter__" := "function __lookupSetter__() { [native code] }",
    "isPrototypeOf" := "function isPrototypeOf() { [native code] }",
    "propertyIsEnumerable" := "function propertyIsEnumerable() { [native code] }",
    "toString" := "function toString() { [native code] }",
    "valueOf" := "function valueOf() { [native code] }",
    "toLocaleString" := "function toLocaleString() { [native code] }",
    "__proto__" := "[object Object]"
  ]

  /** The three resource locations of one artwork. */
  datatype AssetUrls = AssetUrls(mind: string, video: string, meta: string)

  /** The video extension for `id`: the table entry, else the inherited
      member's text, else `.mp4`. */
  function VideoExt(id: string): (ext: string)
    ensures ext == ".MP4" <==> id == "metatation"
    ensures ext == ".mp4" <==> id != "metatation" && id !in InheritedExt
    ensures id in InheritedExt ==> ext == InheritedExt[id]
  {
    if id in VideoExtTable then VideoExtTable[id]
    else if id in InheritedExt then InheritedExt[id]
    else DefaultExt
  }

  /** The length of `id` plus that of its inherited member's text, as a
      function of the length of `id` alone. */
  function InheritedTotal(n: nat): nat {
    if n == 11 then 46 else if n == 9 then 24 else 2 * n + 29
  }

  /** What the injectivity argument needs to know of an extension `e` for
      `id`: a real extension is four characters ending in `4`; an inherited
      text ends in something else and its length is fixed by the id's. */
  predicate ExtShaped(id: string, e: string) {
    && |e| > 0
    && (e[|e| - 1] == '4' ==> |e| == 4)
    && (e[|e| - 1] != '4' ==> |id| + |e| == InheritedTotal(|id|))
  }

  /** A built-in's text repeats its name around 29 fixed characters; only
      `constructor` (whose member is named `Object`) and `__proto__` differ. */
  lemma InheritedLength(k: string)
    requires k in InheritedExt
    ensures |k| + |InheritedExt[k]| == InheritedTotal(|k|)
    ensures InheritedExt[k][|InheritedExt[k]| - 1] != '4'
  {
  }

  /** Every video extension has the shape the injectivity argument needs. */
  lemma VideoExtShape(id: string)
    ensures ExtShaped(id, VideoExt(id))
  {
    if id in InheritedExt {
      InheritedLength(id);
    }
  }

  /** A name followed by a well-shaped extension gives the name back. */
  lemma NameExtInjective(a: string, ea: string, b: string, eb: string)
    requires ExtShaped(a, ea) && ExtShaped(b, eb)
    requires a + ea == b + eb
    ensures a == b
  {
    var x := a + ea;
    assert x[|x| - 1] == ea[|ea| - 1];
    assert x == b + eb && x[|x| - 1] == eb[|eb| - 1];
    if ea[|ea| - 1] == '4' {
      assert a == x[..|x| - 4] == b;
    } else {
      assert |a| == |b|;
      assert a == x[..|a|] == b;
    }
  }

  /** Independent reader of a location of the form `prefix + id + suffix`:
      the id between them, if the location has that shape. */
  function Between(url: string, prefix: string, suffix: string): Option<string> {
    if |prefix| + |suffix| <= |url| && StartsWith(url, prefix) && EndsWith(url, suffix)
    then Some(url[|prefix|..|url| - |suffix|])
    else None
  }

  /** The asset locations of `id`. The argument is interpolated verbatim, so
      each location gives back exactly the id it was built from. */
  function ResolveAssetUrls(id: string): (u: AssetUrls)
    ensures Between(u.mind, "/targets/", ".mind") == Some(id)
    ensures Between(u.video, "/media/", VideoExt(id)) == Some(id)
    ensures Between(u.meta, "/meta/", ".json") == Some(id)
  {
    var ext := VideoExt(id);
    var u := AssetUrls("/targets/" + id + ".mind", "/media/" + id + ext, "/meta/" + id + ".json");
    assert u.mind[|"/targets/"|..|u.mind| - |".mind"|] == id;
    assert u.video[|"/media/"|..|u.video| - |ext|] == id;
    assert u.meta[|"/meta/"|..|u.meta| - |".json"|] == id;
    u
  }

  /** Different ids never share any asset location. */
  lemma ResolveAssetUrlsInjective(a: string, b: string)
    ensures ResolveAssetUrls(a).mind == ResolveAssetUrls(b).mind ==> a == b
    ensures ResolveAssetUrls(a).meta == ResolveAssetUrls(b).meta ==> a == b
    ensures ResolveAssetUrls(a).video == ResolveAssetUrls(b).video ==> a == b
  {
    if ResolveAssetUrls(a).video == ResolveAssetUrls(b).video {
      VideoInjective(a, b);
    }
  }

  /** Two ids with the same video location are the same id. */
  lemma VideoInjective(a: string, b: string)
    requires ResolveAssetUrls(a).video == ResolveAssetUrls(b).video
    ensures a == b
  {
    var ea, eb := VideoExt(a), VideoExt(b);
    VideoExtShape(a);
    VideoExtShape(b);
    DropPrefix("/media/", a, ea);
    DropPrefix("/media/", b, eb);
    NameExtInjective(a, ea, b, eb);
  }

  /** Dropping a known prefix from a concatenation leaves the rest. */
  lemma DropPrefix(p: string, a: string, e: string)
    ensures (p + a + e)[|p|..] == a + e
  {
  }

  /** No id is listed twice. */
  lemma ArtworksDistinct()
    ensures forall i, j :: 0 <= i < j < |Artworks| ==> Artworks[i] != Artworks[j]
  {
    forall i, j | 0 <= i < j < |Artworks|
      ensures Artworks[i] != Artworks[j]
    {
      // The ids differ in their first character or in their length.
      var a, b := Artworks[i], Artworks[j];
      assert a[0] != b[0] || |a| != |b|;
    }
  }

  /** A map keyed by exactly the elements of a duplicate-free sequence has
      one entry per element. */
  lemma {:induction false} KeyedByDistinct<V>(m: map<string, V>, ids: seq<string>)
    requires forall i, j :: 0 <= i < j < |ids| ==> ids[i] != ids[j]
    requires forall id :: id in m <==> id in ids
    ensures |m| == |ids|
    decreases |ids|
  {
    if |ids| > 0 {
      var last := ids[|ids| - 1];
      var init := ids[..|ids| - 1];
      assert ids == init + [last];
      assert last !in init;
      KeyedByDistinct(m - {last}, init);
    }
  }

  /** A map whose keys are exactly the known ids has one entry per id. */
  lemma KeyedByArtworks<V>(m: map<string, V>)
    requires forall id :: id in m <==> id in Artworks
    ensures |m| == |Artworks|
  {
    ArtworksDistinct();
    KeyedByDistinct(m, Artworks);
  }

  /** The locations of each id of `ids`, one map entry per id. */
  method ResolveEach(ids: seq<string>) returns (assets: map<string, AssetUrls>)
    ensures forall id :: id in assets <==> id in ids
    ensures forall id :: id in assets ==> assets[id] == ResolveAssetUrls(id)
  {
    assets := KeyEach(ids, ResolveAssetUrls);
  }

  /** The loop of `resolveAllAssets`: assign `f(id)` to key `id` for each id
      in turn. */
  method KeyEach<V>(ids: seq<string>, f: string -> V) returns (m: map<string, V>)
    ensures forall id :: id in m <==> id in ids
    ensures forall id :: id in m ==> m[id] == f(id)
  {
    m := map[];
    for n := 0 to |ids|
      invariant forall id :: id in m <==> id in ids[..n]
      invariant forall id :: id in m ==> m[id] == f(id)
    {
      m := m[ids[n] := f(ids[n])];
      assert ids[..n + 1] == ids[..n] + [ids[n]];
    }
    assert ids[..|ids|] == ids;
  }

  /** The map of every known id to its locations. */
  method ResolveAllAssets() returns (assets: map<string, AssetUrls>)
    ensures forall id :: id in assets <==> id in Artworks
    ensures forall id :: id in assets ==> assets[id] == ResolveAssetUrls(id)
    ensures |assets| == |Artworks|
  {
    assets := ResolveEach(Artworks);
    KeyedByArtworks(assets);
  }

  /** The characters the regular-expression `.` refuses to match. */
  predicate IsLineTerminator(c: char) {
    c == '\n' || c == '\r' || c == '\U{2028}' || c == '\U{2029}'
  }

  /** Every character of `s` is matched by the regular-expression `.`. */
  predicate Plain(s: string) {
    forall k :: 0 <= k < |s| ==> !IsLineTerminator(s[k])
  }

  /** `\/art\/(.+)$` matches with its `/art/` starting at position `p`: the
      rest of the path after it is nonempty and holds no line terminator. */
  predicate MatchesAt(path: string, p: nat) {
    && p + 5 < |path|
    && path[p..p + 5] == "/art/"
    && Plain(path[p + 5..])
  }

  /** The leftmost position, from `from` on, where the pattern matches. */
  function FirstMatch(path: string, from: nat): (r: Option<nat>)
    decreases |path| - from
    ensures r.Some? ==> from <= r.value && MatchesAt(path, r.value)
    ensures r.Some? ==> forall p :: from <= p < r.value ==> !MatchesAt(path, p)
    ensures r.None? ==> forall p :: from <= p ==> !MatchesAt(path, p)
  {
    if |path| <= from + 5 then None
    else if MatchesAt(path, from) then Some(from)
    else FirstMatch(path, from + 1)
  }

  /** The leftmost match is the one the search finds. */
  lemma {:induction false} FirstMatchFinds(path: string, from: nat, q: nat)
    requires from <= q && MatchesAt(path, q)
    requires forall p :: from <= p < q ==> !MatchesAt(path, p)
    ensures FirstMatch(path, from) == Some(q)
    decreases q - from
  {
    if from < q {
      FirstMatchFinds(path, from + 1, q);
    }
  }

  /** The capture group of the deep-link pattern, if the pattern matches. */
  function Captured(path: string): (c: Option<string>)
    ensures c.Some? ==> exists p: nat :: && MatchesAt(path, p)
                                    && (forall q: nat :: q < p ==> !MatchesAt(path, q))
                                    && c.value == path[p + 5..]
    ensures c.None? ==> forall p :: !MatchesAt(path, p)
  {
    match FirstMatch(path, 0)
    case Some(p) => Some(path[p + 5..])
    case None => None
  }

  /** The artwork a deep link selects: the captured id when it is exactly one
      of the known ids, the default id otherwise. */
  function GetIdFromPath(path: string): (id: string)
    ensures id in Artworks
    ensures id != DefaultId ==> EndsWith(path, "/art/" + id)
  {
    var c := Captured(path);
    if c.Some? && c.value in Artworks then c.value
    else DefaultId
  }

  /** `/art/` followed by a nonempty plain rest is a match, capturing the rest. */
  lemma ArtSegmentMatches(prefix: string, rest: string)
    requires |rest| > 0 && Plain(rest)
    ensures MatchesAt(prefix + "/art/" + rest, |prefix|)
    ensures (prefix + "/art/" + rest)[|prefix| + 5..] == rest
  {
    var path := prefix + "/art/" + rest;
    assert path[|prefix|..|prefix| + 5] == "/art/";
    assert path[|prefix| + 5..] == rest;
  }

  /** The characters the known ids are written with. */
  predicate IsSlugChar(c: char) {
    'a' <= c <= 'z' || c == '-'
  }

  /** A nonempty id of lower-case letters and dashes. */
  predicate Slug(s: string) {
    |s| > 0 && forall k :: 0 <= k < |s| ==> IsSlugChar(s[k])
  }

  /** Every known id is a slug. */
  lemma ArtworksAreSlugs()
    ensures forall id :: id in Artworks ==> Slug(id)
  {
    assert Slug(Artworks[0]) && Slug(Artworks[1]) && Slug(Artworks[2]);
    assert Slug(Artworks[3]) && Slug(Artworks[4]) && Slug(Artworks[5]);
    assert Slug(Artworks[6]) && Slug(Artworks[7]) && Slug(Artworks[8]);
  }

  /** No known id holds a line terminator. */
  lemma ArtworksPlain()
    ensures forall id :: id in Artworks ==> |id| > 0 && Plain(id)
  {
    ArtworksAreSlugs();
  }

  /** A deep link `prefix/art/<id>` selects `id` for every known id, provided
      no earlier `/art/` in the path already matches. */
  lemma DeepLinkSelectsId(prefix: string, id: string)
    requires id in Artworks
    requires forall p: nat :: p < |prefix| ==> !MatchesAt(prefix + "/art/" + id, p)
    ensures GetIdFromPath(prefix + "/art/" + id) == id
  {
    ArtworksPlain();
    ArtSegmentMatches(prefix, id);
    FirstMatchFinds(prefix + "/art/" + id, 0, |prefix|);
  }

  /** A path where the pattern does not match selects the default id. */
  lemma NoDeepLinkSelectsDefault(path: string)
    requires forall p :: !MatchesAt(path, p)
    ensures GetIdFromPath(path) == DefaultId
  {
    assert Captured(path).None?;
  }

  /** The id comparison is exact: a trailing slash falls back to the default id. */
  lemma TrailingSlashSelectsDefault(id: string)
    requires id in Artworks
    ensures GetIdFromPath("/art/" + id + "/") == DefaultId
  {
    ArtworksAreSlugs();
    var rest := id + "/";
    assert Plain(rest) by {
      assert forall k :: 0 <= k < |id| ==> rest[k] == id[k] && IsSlugChar(id[k]);
    }
    ArtSegmentMatches("", rest);
    assert "" + "/art/" + rest == "/art/" + id + "/";
    FirstMatchFinds("/art/" + id + "/", 0, 0);
    assert !Slug(rest) by {
      assert rest[|rest| - 1] == '/';
    }
  }

  /** The id comparison is case-sensitive. */
  lemma CapitalisedIdSelectsDefault()
    ensures GetIdFromPath("/art/Metatation") == DefaultId
  {
    ArtSegmentMatches("", "Metatation");
    assert "" + "/art/" + "Metatation" == "/art/Metatation";
    FirstMatchFinds("/art/Metatation", 0, 0);
    ArtworksAreSlugs();
    assert !IsSlugChar("Metatation"[0]);
  }

  /** The captured id runs to the end of the path, further slashes included. */
  lemma CaptureRunsToEnd()
    ensures Captured("/art/a/b") == Some("a/b")
  {
    ArtSegmentMatches("", "a/b");
    assert "" + "/art/" + "a/b" == "/art/a/b";
    FirstMatchFinds("/art/a/b", 0, 0);
  }

  /** Any unrecognised deep link resolves to the assets of the default id. */
  lemma UnknownLinkResolvesDefaultAssets(path: string)
    requires Captured(path).None? || Captured(path).value !in Artworks
    ensures ResolveAssetUrls(GetIdFromPath(path)) == ResolveAssetUrls(DefaultId)
  {
  }
}

=== FILE: strings.dfy ===
/** Prefix and suffix tests on strings and the subsequence order on
    listings, shared by the routing and the content scripts. */
module Strings {
  predicate StartsWith(s: string, prefix: string) {
    |prefix| <= |s| && s[..|prefix|] == prefix
  }

  predicate EndsWith(s: string, suffix: string) {
    |suffix| <= |s| && s[|s| - |suffix|..] == suffix
  }

  /** `r` is `xs` with some elements deleted and the rest kept in order: the
      last element of `xs` is either deleted or is the last element of `r`. */
  predicate Subsequence<T(==)>(r: seq<T>, xs: seq<T>)
    decreases |xs|
  {
    if |r| == 0 then true
    else if |xs| == 0 then false
    else || Subsequence(r, xs[..|xs| - 1])
         || (r[|r| - 1] == xs[|xs| - 1] && Subsequence(r[..|r| - 1], xs[..|xs| - 1]))
  }
}

=== FILE: tracker.dfy ===
/** The multi-target tracking session (src/ar/tracker.ts).

    The tracker is a record of its fields; construction, `start`, the
    per-anchor found/lost handlers, the video events it listens for, and
    `stop` are pure step functions over that record. The tracking engine,
    the rendering library and the camera are foreign: what they do is
    supplied as inputs (an engine phase outcome, the engine's reported
    target dimensions, the answers to camera requests, and which cleanup
    steps throw). */
module Tracker {
  import opened Wrappers
  import Camera

  /** Identity of one overlay plane; planes are never reused. */
  type PlaneId = nat

  /** A JavaScript number after `Number(..)`: finite, or NaN/infinite. */
  datatype Num = Finite(value: real) | NonFinite

  /** One element of the engine's `controller.dimensions` array. */
  datatype DimEntry = ArrayEntry(items: seq<Num>) | NotAnArray

  /** A target's physical width and height, both finite and positive. */
  datatype Dims = Dims(width: real, height: real)

  /** The engine instance; `dimensions` is `None` when the engine exposes no
      dimensions array. */
  datatype Engine = Engine(dimensions: Option<seq<DimEntry>>)

  /** Where a plane's vertical scale comes from. */
  datatype Aspect =
    | FromTarget(width: real, height: real)  // the engine's target dimensions
    | FromVideo(videoWidth: nat, videoHeight: nat)  // the video's native size
    | AwaitingMetadata                       // deferred to `loadedmetadata`
    | Unscaled                               // metadata came with a zero size

  /** An overlay plane: the target it was made for, the artwork whose video
      textures it, and its aspect source. */
  datatype Plane = Plane(target: nat, artwork: string, aspect: Aspect)

  /** A registered anchor: the artwork its handlers captured, and its group's
      visibility and children. */
  datatype Anchor = Anchor(artwork: string, visible: bool, children: multiset<PlaneId>)

  /** A caller-owned video element as the tracker sees and changes it. `src`
      and `dataSrc` are empty when absent; `playRequested` is whether the last
      command was play rather than pause; `playCalls` and `loadCalls` count
      calls of play() and load(); the waiters are the pending one-shot
      listeners for `canplay` (each will call play) and for `loadedmetadata`
      (each will scale one plane). */
  datatype Video = Video(
    src: string,
    dataSrc: string,
    hidden: bool,
    playRequested: bool,
    readyState: nat,
    width: nat,
    height: nat,
    playCalls: nat,
    loadCalls: nat,
    canPlayWaiters: nat,
    metadataWaiters: set<PlaneId>)

  /** The tracker's state.
      - `keys`: the keys of the caller's artwork-to-video record, in order;
      - `videos`: the video element of each key (a key without one had a
        falsy value);
      - `targetMap`: target index to artwork id;
      - `engine`: the engine handle, which stands for the renderer, scene and
        camera handles too, since they are set and cleared together;
      - `rendering`: whether a render loop is installed;
      - `planes`: the plane last created for each target index;
      - `dims`: the target-dimension cache;
      - `meshes`, `nextPlane`: every plane created so far, and the next id;
      - `feeds`: camera-passthrough video elements the fallback appended to
        the container. */
  datatype Session = Session(
    keys: seq<string>,
    videos: map<string, Video>,
    targetMap: map<nat, string>,
    running: bool,
    engine: Option<Engine>,
    rendering: bool,
    anchors: map<nat, Anchor>,
    planes: map<nat, PlaneId>,
    dims: map<nat, Dims>,
    meshes: map<PlaneId, Plane>,
    nextPlane: PlaneId,
    feeds: nat)

  /** Target index i stands for the i-th key, for exactly the indices of
      the keys. */
  ghost predicate IndexMapOf(keys: seq<string>, targetMap: map<nat, string>) {
    && (forall i: nat :: i in targetMap <==> i < |keys|)
    && (forall i: nat :: i < |keys| ==> i in targetMap && targetMap[i] == keys[i])
  }

  /** Every anchor is registered for a mapped index and captured its artwork. */
  ghost predicate AnchorsCaptured(targetMap: map<nat, string>, anchors: map<nat, Anchor>) {
    forall i :: i in anchors ==> i in targetMap && anchors[i].artwork == targetMap[i]
  }

  /** Every recorded plane is recorded for an index that has an anchor, and
      was created (it need not be among that anchor's current children). */
  ghost predicate PlanesRecorded(anchors: map<nat, Anchor>, planes: map<nat, PlaneId>, meshes: map<PlaneId, Plane>) {
    forall i :: i in planes ==> i in anchors && planes[i] in meshes
  }

  /** Plane ids below `nextPlane` have been handed out; none above. */
  ghost predicate IdsIssued(anchors: map<nat, Anchor>, meshes: map<PlaneId, Plane>, nextPlane: PlaneId) {
    && (forall p :: p in meshes ==> p < nextPlane)
    && (forall i, p :: i in anchors && p in anchors[i].children ==> p < nextPlane)
  }

  /** The invariant of every session reachable from `Construct`. */
  ghost predicate Valid(s: Session) {
    && IndexMapOf(s.keys, s.targetMap)
    && AnchorsCaptured(s.targetMap, s.anchors)
    && PlanesRecorded(s.anchors, s.planes, s.meshes)
    && IdsIssued(s.anchors, s.meshes, s.nextPlane)
  }

  // ---------------------------------------------------------------------
  // Construction

  /** A new tracker over the caller's artwork-to-video record: target index
      i stands for the i-th key; nothing is running or registered yet. */
  function Construct(keys: seq<string>, videos: map<string, Video>): (s: Session)
    ensures Valid(s)
    ensures forall i: nat :: i in s.targetMap <==> i < |keys|
    ensures forall i: nat :: i < |keys| ==> s.targetMap[i] == keys[i]
    ensures !s.running && s.engine.None? && !s.rendering
    ensures s.anchors == map[] && s.planes == map[] && s.dims == map[] && s.meshes == map[]
  {
    var targetMap := map i: nat | i < |keys| :: keys[i];
    Session(keys, videos, targetMap, false, None, false, map[], map[], map[], map[], 0, 0)
  }

  /** With distinct keys, as an object's keys always are, the index map is a
      bijection between 0..n-1 and the keys. */
  lemma ConstructBijective(keys: seq<string>, videos: map<string, Video>)
    requires forall i, j :: 0 <= i < j < |keys| ==> keys[i] != keys[j]
    ensures var m := Construct(keys, videos).targetMap;
            && (forall i, j :: i in m && j in m && m[i] == m[j] ==> i == j)
            && (forall a :: a in keys ==> exists i :: i in m && m[i] == a)
  {
    var m := Construct(keys, videos).targetMap;
    forall a | a in keys
      ensures exists i :: i in m && m[i] == a
    {
      var i :| 0 <= i < |keys| && keys[i] == a;
      assert i in m && m[i] == a;
    }
  }

  // ---------------------------------------------------------------------
  // Target dimensions

  /** A dimensions entry is kept when it is an array of at least two items
      whose first two are finite and positive. */
  predicate UsableDims(e: DimEntry) {
    && e.ArrayEntry?
    && |e.items| >= 2
    && e.items[0].Finite? && e.items[1].Finite?
    && e.items[0].value > 0.0 && e.items[1].value > 0.0
  }

  function ToDims(e: DimEntry): Dims
    requires UsableDims(e)
  {
    Dims(e.items[0].value, e.items[1].value)
  }

  /** The cache entries read from the dimension entries at `from` and after. */
  function CollectDims(ds: seq<DimEntry>, from: nat): (m: map<nat, Dims>)
    requires from <= |ds|
    decreases |ds| - from
    ensures forall idx: nat :: idx in m <==> from <= idx < |ds| && UsableDims(ds[idx])
    ensures forall idx :: idx in m ==> idx < |ds| && UsableDims(ds[idx]) && m[idx] == ToDims(ds[idx])
  {
    if from == |ds| then map[]
    else
      var rest := CollectDims(ds, from + 1);
      if UsableDims(ds[from]) then rest[from := ToDims(ds[from])] else rest
  }

  /** The cache as a plane creation leaves it: read from the engine only
      while empty, and never overwritten once it holds an entry. */
  function LazyDims(s: Session): (m: map<nat, Dims>)
    ensures |s.dims| > 0 ==> m == s.dims
    ensures |s.dims| == 0 && s.engine.Some? && s.engine.value.dimensions.Some? ==>
              forall idx: nat :: idx in m <==> (idx < |s.engine.value.dimensions.value|
                                                && UsableDims(s.engine.value.dimensions.value[idx]))
    ensures |s.dims| == 0 && s.engine.Some? && s.engine.value.dimensions.Some? ==>
              forall idx :: idx in m ==> && idx < |s.engine.value.dimensions.value|
                                         && UsableDims(s.engine.value.dimensions.value[idx])
                                         && m[idx] == ToDims(s.engine.value.dimensions.value[idx])
    ensures |s.dims| == 0 && (s.engine.None? || s.engine.value.dimensions.None?) ==> m == s.dims
  {
    if |s.dims| == 0 && s.engine.Some? && s.engine.value.dimensions.Some? then
      CollectDims(s.engine.value.dimensions.value, 0)
    else s.dims
  }

  /** Aspect-source precedence for a new plane: the cached target dimensions,
      else the video's native size if both sides are nonzero, else wait for
      the video's metadata. */
  function ChooseAspect(cached: Option<Dims>, v: Video): (a: Aspect)
    ensures a.FromTarget? <==> cached.Some?
    ensures a.FromTarget? ==> a.width == cached.value.width && a.height == cached.value.height
    ensures a.FromVideo? <==> cached.None? && v.width != 0 && v.height != 0
    ensures a.FromVideo? ==> a.videoWidth == v.width && a.videoHeight == v.height
    ensures !a.Unscaled?
  {
    if cached.Some? then FromTarget(cached.value.width, cached.value.height)
    else if v.width != 0 && v.height != 0 then FromVideo(v.width, v.height)
    else AwaitingMetadata
  }

  /** What a deferred plane's `loadedmetadata` listener does: scale only when
      both sides are nonzero. */
  function ApplyMetadata(width: nat, height: nat): (a: Aspect)
    ensures a.FromVideo? || a.Unscaled?
    ensures a.FromVideo? <==> width != 0 && height != 0
    ensures a.FromVideo? ==> a.videoWidth == width && a.videoHeight == height
  {
    if width != 0 && height != 0 then FromVideo(width, height) else Unscaled
  }

  // ---------------------------------------------------------------------
  // Found / lost

  /** The plane creation step of a found event for index i: with no video for
      the target's artwork nothing happens; otherwise the dimension cache is
      read if empty, and a fresh plane is attached to the anchor's group and
      recorded for index i, overwriting (not detaching) any earlier one. */
  function CreatePlane(s: Session, i: nat): (r: Session)
    requires i in s.anchors
    ensures r.keys == s.keys && r.targetMap == s.targetMap && r.running == s.running
    ensures r.engine == s.engine && r.rendering == s.rendering && r.feeds == s.feeds
    ensures r.videos.Keys == s.videos.Keys && r.anchors.Keys == s.anchors.Keys
    ensures r.dims == if i in s.targetMap && s.targetMap[i] in s.videos then LazyDims(s) else s.dims
    ensures forall j :: j in s.anchors && j != i ==> r.anchors[j] == s.anchors[j]
    ensures forall j :: j != i ==> (j in r.planes <==> j in s.planes)
    ensures forall j :: j in s.planes && j != i ==> r.planes[j] == s.planes[j]
  {
    if i !in s.targetMap || s.targetMap[i] !in s.videos then s
    else
      var key := s.targetMap[i];
      var v := s.videos[key];
      var dims := LazyDims(s);
      var aspect := ChooseAspect(if i in dims then Some(dims[i]) else None, v);
      var waiting := if aspect.AwaitingMetadata? then s.videos[key := v.(metadataWaiters := v.metadataWaiters + {s.nextPlane})]
                     else s.videos;
      Attach(s.(videos := waiting), i, Plane(i, key, aspect), dims)
  }

  /** Store the dimension cache, issue the next plane id for `plane`, add it
      to anchor i's group and record it for index i. */
  function Attach(s: Session, i: nat, plane: Plane, dims: map<nat, Dims>): (r: Session)
    requires i in s.anchors
    ensures r.nextPlane == s.nextPlane + 1 && r.meshes == s.meshes[s.nextPlane := plane] && r.dims == dims
    ensures r.planes == s.planes[i := s.nextPlane]
    ensures r.anchors == s.anchors[i := s.anchors[i].(children := s.anchors[i].children + multiset{s.nextPlane})]
    ensures r.keys == s.keys && r.targetMap == s.targetMap
  {
    var p := s.nextPlane;
    var a := s.anchors[i];
    s.(
      dims := dims,
      meshes := s.meshes[p := plane],
      nextPlane := p + 1,
      anchors := s.anchors[i := a.(children := a.children + multiset{p})],
      planes := s.planes[i := p])
  }

  /** The playback step of a found event: take `src` from `data-src` when
      `src` is empty and `data-src` is not, unhide, then either play now and
      again on `canplay` (metadata already loaded) or load and play on
      `canplay`. */
  function Engage(v: Video): (r: Video)
    ensures r.dataSrc == v.dataSrc && r.readyState == v.readyState && r.metadataWaiters == v.metadataWaiters
    ensures r.width == v.width && r.height == v.height
    ensures r.src != v.src <==> v.src == "" && v.dataSrc != ""
    ensures r.src != v.src ==> r.src == v.dataSrc
    ensures !r.hidden && r.canPlayWaiters == v.canPlayWaiters + 1
    ensures v.readyState >= 1 ==> r.playRequested && r.playCalls == v.playCalls + 1 && r.loadCalls == v.loadCalls
    ensures v.readyState < 1 ==> && r.playRequested == v.playRequested && r.playCalls == v.playCalls
                                 && r.loadCalls == v.loadCalls + 1
  {
    var sourced := if v.src == "" && v.dataSrc != "" then v.(src := v.dataSrc) else v;
    var shown := sourced.(hidden := false);
    if shown.readyState >= 1 then
      shown.(canPlayWaiters := shown.canPlayWaiters + 1, playCalls := shown.playCalls + 1, playRequested := true)
    else
      shown.(loadCalls := shown.loadCalls + 1, canPlayWaiters := shown.canPlayWaiters + 1)
  }

  /** The found handler of anchor i: show the group, create a plane, and start
      the captured artwork's video. An index without an anchor has no handler. */
  function Found(s: Session, i: nat): (r: Session)
    ensures i !in s.anchors ==> r == s
    ensures i in s.anchors ==> i in r.anchors && r.anchors[i].visible && r.anchors[i].artwork == s.anchors[i].artwork
    ensures Playable(s, i) ==> && r.anchors[i].children == s.anchors[i].children + multiset{s.nextPlane}
                               && i in r.planes && r.planes[i] == s.nextPlane
                               && s.nextPlane in r.meshes && r.meshes[s.nextPlane].target == i
                               && r.nextPlane == s.nextPlane + 1
    ensures forall j :: j != i ==> (j in r.anchors <==> j in s.anchors)
    ensures forall j :: j != i && j in s.anchors ==> r.anchors[j] == s.anchors[j]
  {
    if i !in s.anchors then s
    else
      var a := s.anchors[i];
      var withPlane := CreatePlane(s.(anchors := s.anchors[i := a.(visible := true)]), i);
      if a.artwork in withPlane.videos then
        withPlane.(videos := withPlane.videos[a.artwork := Engage(withPlane.videos[a.artwork])])
      else withPlane
  }

  /** The lost handler of anchor i: hide the group, detach and forget the
      recorded plane if there is one, and pause and hide the video. */
  function Lost(s: Session, i: nat): (r: Session)
    ensures i !in s.anchors ==> r == s
    ensures i in s.anchors ==> && i in r.anchors && !r.anchors[i].visible && i !in r.planes
                               && r.anchors[i].artwork == s.anchors[i].artwork
    ensures i in s.anchors && i in s.planes ==>
              r.anchors[i].children == s.anchors[i].children - multiset{s.planes[i]}
    ensures i in s.anchors && i !in s.planes ==> r.anchors[i].children == s.anchors[i].children
    ensures r.videos.Keys == s.videos.Keys
    ensures i in s.anchors && s.anchors[i].artwork in s.videos ==>
              var v := r.videos[s.anchors[i].artwork]; v.hidden && !v.playRequested
    ensures r.meshes == s.meshes && r.nextPlane == s.nextPlane
  {
    if i !in s.anchors then s
    else
      var a := s.anchors[i];
      var hidden := a.(visible := false);
      var detached := if i in s.planes then hidden.(children := hidden.children - multiset{s.planes[i]}) else hidden;
      var key := a.artwork;
      s.(
        anchors := s.anchors[i := detached],
        planes := s.planes - {i},
        videos := if key in s.videos then s.videos[key := s.videos[key].(playRequested := false, hidden := true)]
                  else s.videos)
  }

  // ---------------------------------------------------------------------
  // Video events the tracker listens for

  /** `loadedmetadata` on the video of `key`: the element reports its size,
      and every plane waiting on this video is scaled (or left unscaled when
      a side is zero); the one-shot listeners are gone afterwards. */
  function MetadataLoaded(s: Session, key: string, width: nat, height: nat): (r: Session)
    ensures r.videos.Keys == s.videos.Keys && r.meshes.Keys == s.meshes.Keys
    ensures key in s.videos ==> r.videos[key].metadataWaiters == {} && r.videos[key].readyState >= 1
    ensures key in s.videos ==> forall p :: p in s.meshes && p in s.videos[key].metadataWaiters ==>
              r.meshes[p] == s.meshes[p].(aspect := ApplyMetadata(width, height))
    ensures forall p :: p in s.meshes && (key !in s.videos || p !in s.videos[key].metadataWaiters) ==>
              r.meshes[p] == s.meshes[p]
    ensures r.anchors == s.anchors && r.planes == s.planes
  {
    if key !in s.videos then s
    else
      var v := s.videos[key];
      var loaded := v.(readyState := if v.readyState < 1 then 1 else v.readyState,
                       width := width, height := height, metadataWaiters := {});
      s.(videos := s.videos[key := loaded],
         meshes := Rescale(s.meshes, v.metadataWaiters, ApplyMetadata(width, height)))
  }

  /** The planes in `waiting` take the new aspect; the others keep theirs. */
  function Rescale(meshes: map<PlaneId, Plane>, waiting: set<PlaneId>, aspect: Aspect): (m: map<PlaneId, Plane>)
    ensures m.Keys == meshes.Keys
    ensures forall p :: p in meshes && p in waiting ==> m[p] == meshes[p].(aspect := aspect)
    ensures forall p :: p in meshes && p !in waiting ==> m[p] == meshes[p]
  {
    map p | p in meshes :: if p in waiting then meshes[p].(aspect := aspect) else meshes[p]
  }

  /** `canplay` on the video of `key`: every pending listener calls play()
      once and is removed. */
  function CanPlay(s: Session, key: string): (r: Session)
    ensures r.videos.Keys == s.videos.Keys
    ensures key in s.videos ==> r.videos[key].playCalls == s.videos[key].playCalls + s.videos[key].canPlayWaiters
    ensures key in s.videos ==> r.videos[key].canPlayWaiters == 0
    ensures key in s.videos && s.videos[key].canPlayWaiters > 0 ==> r.videos[key].playRequested
    ensures r.anchors == s.anchors && r.planes == s.planes && r.meshes == s.meshes
  {
    if key !in s.videos then s
    else
      var v := s.videos[key];
      s.(videos := s.videos[key := v.(playCalls := v.playCalls + v.canPlayWaiters,
                                      playRequested := v.playRequested || v.canPlayWaiters > 0,
                                      canPlayWaiters := 0,
                                      readyState := if v.readyState < 3 then 3 else v.readyState)])
  }

  // ---------------------------------------------------------------------
  // Start

  /** How far the engine phase of `start` gets. `NoConstructor` and
      `ConstructorLookupThrew` are the two ways the engine constructor can be
      missing; the rest happen after it is found: the constructor throws,
      `addAnchor` throws for index `at`, the engine's start rejects, a step
      after `running` was set throws (with the render loop installed or not),
      or everything succeeds.

      A failure to load the Three.js script throws to the outer catch before
      any constructor is looked up; nothing is registered and the fallback
      runs once, so it is the same phase as `ConstructThrew`. A failed engine
      script load is caught per URL and ends in `NoConstructor`.
      `AnchorThrew(at)` with `at` at or past the number of keys cannot arise
      (the loop stops before it); the model lets it register every anchor
      and still fall back once, as a throw after the last anchor would. */
  datatype EnginePhase =
    | NoConstructor
    | ConstructorLookupThrew
    | ConstructThrew
    | AnchorThrew(at: nat)
    | EngineStartRejected
    | LayoutThrew(loopInstalled: bool)
    | EngineReady

  /** What `start` returns: nothing (already running, or the engine started),
      a resolution after the camera fallback succeeded, or a rejection with
      the last camera error. `requests` counts camera requests made. */
  datatype StartResult =
    | AlreadyRunning
    | Tracking
    | FellBack(requests: nat)
    | Rejected(error: Camera.HostError, requests: nat)

  /** Register anchors for indices 0..count-1 over the existing ones, each
      capturing its index's artwork; a new anchor's group is hidden and empty. */
  function Register(s: Session, count: nat): (r: Session)
    requires count <= |s.keys|
    ensures forall i: nat :: i in r.anchors <==> i in s.anchors || i < count
    ensures forall i: nat :: i < count ==> r.anchors[i] == Anchor(s.keys[i], false, multiset{})
    ensures forall i :: i in s.anchors && count <= i ==> r.anchors[i] == s.anchors[i]
    ensures r == s.(anchors := r.anchors)
  {
    s.(anchors := s.anchors + NewAnchors(s.keys, count))
  }

  /** Fresh anchors for indices 0..count-1, each capturing its key. */
  function NewAnchors(keys: seq<string>, count: nat): (m: map<nat, Anchor>)
    requires count <= |keys|
    ensures forall i: nat :: i in m <==> i < count
    ensures forall i: nat :: i < count ==> m[i] == Anchor(keys[i], false, multiset{})
  {
    map i: nat | i < count :: Anchor(keys[i], false, multiset{})
  }

  /** How many anchors a phase registers before it fails (all of them when it
      gets past the anchor loop). */
  function Registered(phase: EnginePhase, n: nat): (count: nat)
    ensures count <= n
  {
    match phase
    case NoConstructor => 0
    case ConstructorLookupThrew => 0
    case ConstructThrew => 0
    case AnchorThrew(at) => if at < n then at else n
    case _ => n
  }

  /** The camera-only fallback, run `tries` times at most: request the camera
      (request number `from`); on success append the feed and mark running;
      on failure try again while tries remain, else reject with the error. */
  function FallbackChain(s: Session, camera: nat -> Camera.HostAnswer, from: nat, tries: nat): (r: (Session, StartResult))
    requires tries >= 1
    decreases tries
    ensures r.1.FellBack? || r.1.Rejected?
    ensures r.1.FellBack? <==> exists k :: from <= k < from + tries && camera(k).Granted?
    ensures r.1.FellBack? ==> && from < r.1.requests <= from + tries
                              && camera(r.1.requests - 1).Granted?
                              && (forall k :: from <= k < r.1.requests - 1 ==> camera(k).Refused?)
                              && r.0 == s.(running := true, feeds := s.feeds + 1)
    ensures r.1.Rejected? ==> && r.1.requests == from + tries
                              && (forall k :: from <= k < from + tries ==> camera(k).Refused?)
                              && r.1.error == camera(from + tries - 1).error
                              && r.0 == s
  {
    match camera(from)
    case Granted(_) => (s.(running := true, feeds := s.feeds + 1), FellBack(from + 1))
    case Refused(e) =>
      if tries == 1 then (s, Rejected(e, from + 1))
      else FallbackChain(s, camera, from + 1, tries - 1)
  }

  /** How many times the camera fallback may run for a phase: the missing
      constructor path reaches it from its own branch, the inner catch and
      the outer catch; a throwing constructor lookup from the inner and outer
      catch; every later failure from the outer catch only. */
  function FallbackTries(phase: EnginePhase): (tries: nat)
    ensures tries == 0 <==> phase == EngineReady
    ensures tries <= 3
  {
    match phase
    case NoConstructor => 3
    case ConstructorLookupThrew => 2
    case EngineReady => 0
    case _ => 1
  }

  /** The session as the engine phase leaves it, before any fallback: the
      engine handle is set once the constructor succeeds, anchors are
      registered as far as the phase gets, and `running` (and the render
      loop) are set only past the engine's start. */
  function EngineAttempt(s: Session, phase: EnginePhase, engine: Engine): (r: Session)
    ensures r.keys == s.keys && r.targetMap == s.targetMap && r.videos == s.videos
    ensures r.dims == s.dims && r.planes == s.planes && r.meshes == s.meshes
    ensures r.nextPlane == s.nextPlane && r.feeds == s.feeds
    ensures r.running <==> s.running || phase.LayoutThrew? || phase.EngineReady?
    ensures r.engine == if phase.NoConstructor? || phase.ConstructorLookupThrew? || phase.ConstructThrew?
                        then s.engine else Some(engine)
  {
    if phase.NoConstructor? || phase.ConstructorLookupThrew? || phase.ConstructThrew? then s
    else
      var registered := Register(s.(engine := Some(engine)), Registered(phase, |s.keys|));
      match phase
      case LayoutThrew(loop) => registered.(running := true, rendering := loop || registered.rendering)
      case EngineReady => registered.(running := true, rendering := true)
      case _ => registered
  }

  /** `start`. When already running, nothing happens. Otherwise the engine
      phase runs as far as `phase` says, with `engine` as the constructed
      instance, and every engine failure falls back to the camera, answered
      by `camera(k)` for the k-th request. */
  function Start(s: Session, phase: EnginePhase, engine: Engine, camera: nat -> Camera.HostAnswer): (r: (Session, StartResult))
    ensures s.running ==> r == (s, AlreadyRunning)
    ensures !s.running ==> !r.1.AlreadyRunning?
    ensures r.1.Tracking? <==> !s.running && phase == EngineReady
    ensures r.0.keys == s.keys && r.0.targetMap == s.targetMap && r.0.videos == s.videos
    ensures r.0.dims == s.dims && r.0.planes == s.planes && r.0.meshes == s.meshes
    ensures r.0.nextPlane == s.nextPlane
  {
    if s.running then (s, AlreadyRunning)
    else if phase == EngineReady then (EngineAttempt(s, phase, engine), Tracking)
    else FallbackChain(EngineAttempt(s, phase, engine), camera, 0, FallbackTries(phase))
  }

  // ---------------------------------------------------------------------
  // Stop

  /** Which of stop's guarded cleanup steps throw: clearing the render loop,
      stopping the engine, removing the container's canvases and videos. */
  datatype StopFaults = StopFaults(loopThrows: bool, engineThrows: bool, domThrows: bool)

  /** Which cleanup steps took effect. */
  datatype StopReport = StopReport(loopCleared: bool, engineStopped: bool, domCleaned: bool)

  /** `stop`: each cleanup step runs under its own guard, then the tracker is
      reset. The index map, the videos and the dimension cache are kept. */
  function Stop(s: Session, f: StopFaults): (r: (Session, StopReport))
    ensures !r.0.running && r.0.engine.None?
    ensures r.0.anchors == map[] && r.0.planes == map[]
    ensures r.0.keys == s.keys && r.0.targetMap == s.targetMap && r.0.videos == s.videos
    ensures r.0.dims == s.dims && r.0.meshes == s.meshes && r.0.nextPlane == s.nextPlane
    ensures r.1.loopCleared <==> s.engine.Some? && !f.loopThrows
    ensures r.1.engineStopped <==> s.engine.Some? && !f.engineThrows
    ensures r.1.domCleaned <==> !f.domThrows
    ensures r.0.rendering <==> s.rendering && !r.1.loopCleared
    ensures r.0.feeds == (if f.domThrows then s.feeds else 0)
  {
    var loopCleared := s.engine.Some? && !f.loopThrows;
    var report := StopReport(loopCleared, s.engine.Some? && !f.engineThrows, !f.domThrows);
    (Halted(s, s.rendering && !loopCleared, if f.domThrows then s.feeds else 0), report)
  }

  /** The reset at the end of `stop`: nothing runs, no engine is held, and
      no anchor or plane is recorded; the render loop and the feeds are as
      the guarded steps left them. */
  function Halted(s: Session, rendering: bool, feeds: nat): (r: Session)
    ensures !r.running && r.engine.None? && r.rendering == rendering && r.feeds == feeds
    ensures r.anchors == map[] && r.planes == map[]
    ensures r.keys == s.keys && r.targetMap == s.targetMap && r.videos == s.videos
    ensures r.dims == s.dims && r.meshes == s.meshes && r.nextPlane == s.nextPlane
  {
    s.(running := false, engine := None, rendering := rendering, anchors := map[], planes := map[], feeds := feeds)
  }

  // ---------------------------------------------------------------------
  // Every reachable session is valid

  /** Everything that can happen to a tracker. */
  datatype Event =
    | StartEvent(phase: EnginePhase, engine: Engine, camera: nat -> Camera.HostAnswer)
    | FoundEvent(index: nat)
    | LostEvent(index: nat)
    | MetadataEvent(key: string, width: nat, height: nat)
    | CanPlayEvent(key: string)
    | StopEvent(faults: StopFaults)

  function Step(s: Session, e: Event): Session {
    match e
    case StartEvent(phase, engine, camera) => Start(s, phase, engine, camera).0
    case FoundEvent(i) => Found(s, i)
    case LostEvent(i) => Lost(s, i)
    case MetadataEvent(key, w, h) => MetadataLoaded(s, key, w, h)
    case CanPlayEvent(key) => CanPlay(s, key)
    case StopEvent(f) => Stop(s, f).0
  }

  function Run(s: Session, events: seq<Event>): Session
    decreases |events|
  {
    if |events| == 0 then s else Run(Step(s, events[0]), events[1..])
  }

  lemma CreatePlaneKeepsValid(s: Session, i: nat)
    requires Valid(s) && i in s.anchors
    ensures Valid(CreatePlane(s, i))
  {
    if s.targetMap[i] in s.videos {
      var key := s.targetMap[i];
      var v := s.videos[key];
      var dims := LazyDims(s);
      var aspect := ChooseAspect(if i in dims then Some(dims[i]) else None, v);
      var waiting := if aspect.AwaitingMetadata? then s.videos[key := v.(metadataWaiters := v.metadataWaiters + {s.nextPlane})]
                     else s.videos;
      AttachKeepsValid(s.(videos := waiting), i, Plane(i, key, aspect), dims);
    }
  }

  lemma AttachKeepsValid(s: Session, i: nat, plane: Plane, dims: map<nat, Dims>)
    requires Valid(s) && i in s.anchors
    ensures Valid(Attach(s, i, plane, dims))
  {
    var r := Attach(s, i, plane, dims);
    forall j | j in r.anchors
      ensures j in r.targetMap && r.anchors[j].artwork == r.targetMap[j]
    {
    }
    forall j | j in r.planes
      ensures j in r.anchors && r.planes[j] in r.meshes
    {
    }
    forall j, p | j in r.anchors && p in r.anchors[j].children
      ensures p < r.nextPlane
    {
      if j != i {
        assert p in s.anchors[j].children;
      }
    }
  }

  lemma FoundKeepsValid(s: Session, i: nat)
    requires Valid(s)
    ensures Valid(Found(s, i))
  {
    if i in s.anchors {
      var a := s.anchors[i];
      var shown := s.(anchors := s.anchors[i := a.(visible := true)]);
      assert AnchorsCaptured(shown.targetMap, shown.anchors);
      assert PlanesRecorded(shown.anchors, shown.planes, shown.meshes);
      assert IdsIssued(shown.anchors, shown.meshes, shown.nextPlane);
      CreatePlaneKeepsValid(shown, i);
    }
  }

  lemma LostKeepsValid(s: Session, i: nat)
    requires Valid(s)
    ensures Valid(Lost(s, i))
  {
    if i in s.anchors {
      var r := Lost(s, i);
      assert AnchorsCaptured(r.targetMap, r.anchors);
      assert PlanesRecorded(r.anchors, r.planes, r.meshes);
      assert IdsIssued(r.anchors, r.meshes, r.nextPlane);
    }
  }

  lemma MetadataLoadedKeepsValid(s: Session, key: string, width: nat, height: nat)
    requires Valid(s)
    ensures Valid(MetadataLoaded(s, key, width, height))
  {
    var r := MetadataLoaded(s, key, width, height);
    assert PlanesRecorded(r.anchors, r.planes, r.meshes);
    assert IdsIssued(r.anchors, r.meshes, r.nextPlane);
  }

  lemma CanPlayKeepsValid(s: Session, key: string)
    requires Valid(s)
    ensures Valid(CanPlay(s, key))
  {
  }

  lemma RegisterKeepsValid(s: Session, count: nat)
    requires Valid(s) && count <= |s.keys|
    ensures Valid(Register(s, count))
  {
    var r := Register(s, count);
    assert AnchorsCaptured(r.targetMap, r.anchors);
    assert PlanesRecorded(r.anchors, r.planes, r.meshes);
    assert IdsIssued(r.anchors, r.meshes, r.nextPlane);
  }

  lemma StartKeepsValid(s: Session, phase: EnginePhase, engine: Engine, camera: nat -> Camera.HostAnswer)
    requires Valid(s)
    ensures Valid(Start(s, phase, engine, camera).0)
  {
    if !s.running {
      EngineAttemptKeepsValid(s, phase, engine);
    }
  }

  lemma EngineAttemptKeepsValid(s: Session, phase: EnginePhase, engine: Engine)
    requires Valid(s)
    ensures Valid(EngineAttempt(s, phase, engine))
  {
    if !(phase.NoConstructor? || phase.ConstructorLookupThrew? || phase.ConstructThrew?) {
      RegisterKeepsValid(s.(engine := Some(engine)), Registered(phase, |s.keys|));
    }
  }

  lemma StopKeepsValid(s: Session, f: StopFaults)
    requires Valid(s)
    ensures Valid(Stop(s, f).0)
  {
  }

  /** Every event keeps the session invariant. */
  lemma StepKeepsValid(s: Session, e: Event)
    requires Valid(s)
    ensures Valid(Step(s, e))
  {
    match e
    case StartEvent(phase, engine, camera) => StartKeepsValid(s, phase, engine, camera);
    case FoundEvent(i) => FoundKeepsValid(s, i);
    case LostEvent(i) => LostKeepsValid(s, i);
    case MetadataEvent(key, w, h) => MetadataLoadedKeepsValid(s, key, w, h);
    case CanPlayEvent(key) => CanPlayKeepsValid(s, key);
    case StopEvent(f) => StopKeepsValid(s, f);
  }

  /** Every session reachable from construction satisfies `Valid`, which is
      why the lemmas below may assume it. */
  lemma {:induction false} ReachableIsValid(s: Session, events: seq<Event>)
    requires Valid(s)
    ensures Valid(Run(s, events))
    decreases |events|
  {
    if |events| > 0 {
      StepKeepsValid(s, events[0]);
      ReachableIsValid(Step(s, events[0]), events[1..]);
    }
  }

  lemma ConstructedRunIsValid(keys: seq<string>, videos: map<string, Video>, events: seq<Event>)
    ensures Valid(Run(Construct(keys, videos), events))
  {
    ReachableIsValid(Construct(keys, videos), events);
  }

  // ---------------------------------------------------------------------
  // Found and lost

  /** Anchor i is registered for a mapped index, captured that index's
      artwork, and the artwork has a video. */
  predicate Playable(s: Session, i: nat) {
    && i in s.anchors && i in s.targetMap
    && s.targetMap[i] == s.anchors[i].artwork
    && s.anchors[i].artwork in s.videos
  }

  /** The plane bookkeeping of a found event for a playable anchor. */
  lemma FoundAddsPlane(s: Session, i: nat)
    requires Playable(s, i)
    ensures var r := Found(s, i);
            var p := s.nextPlane;
            && Playable(r, i)
            && r.anchors[i].visible && r.anchors[i].artwork == s.anchors[i].artwork
            && r.anchors[i].children == s.anchors[i].children + multiset{p}
            && i in r.planes && r.planes[i] == p
            && r.meshes == s.meshes[p := r.meshes[p]]
            && r.meshes[p].target == i && r.meshes[p].artwork == s.anchors[i].artwork
            && r.nextPlane == p + 1
  {
  }

  /** A found event for an anchor whose artwork has a video shows the group,
      attaches a plane that was not there before, records it for the index,
      and registers it with the target and artwork; earlier planes are kept. */
  lemma FoundAttachesFreshPlane(s: Session, i: nat)
    requires Valid(s) && i in s.anchors && s.anchors[i].artwork in s.videos
    ensures var r := Found(s, i);
            var p := s.nextPlane;
            && r.anchors[i].visible && r.anchors[i].artwork == s.anchors[i].artwork
            && p !in s.anchors[i].children
            && r.anchors[i].children == s.anchors[i].children + multiset{p}
            && i in r.planes && r.planes[i] == p
            && p !in s.meshes && p in r.meshes
            && r.meshes[p].target == i && r.meshes[p].artwork == s.anchors[i].artwork
            && (forall q :: q in s.meshes ==> q in r.meshes && r.meshes[q] == s.meshes[q])
            && r.nextPlane == p + 1
  {
    FoundAddsPlane(s, i);
  }

  /** Found leaves every other anchor and every other index's plane alone. */
  lemma FoundTouchesOnlyItsIndex(s: Session, i: nat, j: nat)
    requires j != i
    ensures var r := Found(s, i);
            && (j in r.anchors <==> j in s.anchors)
            && (j in s.anchors ==> r.anchors[j] == s.anchors[j])
            && (j in r.planes <==> j in s.planes)
            && (j in s.planes ==> r.planes[j] == s.planes[j])
  {
  }

  /** With no video for the anchor's artwork, a found event only shows the
      group: no plane is created and nothing is read. */
  lemma FoundWithoutVideoCreatesNoPlane(s: Session, i: nat)
    requires Valid(s) && i in s.anchors && s.anchors[i].artwork !in s.videos
    ensures Found(s, i) == s.(anchors := s.anchors[i := s.anchors[i].(visible := true)])
  {
  }

  /** A repeated found event attaches a second plane without detaching the
      first: the group's children accumulate. */
  lemma RepeatedFoundAccumulates(s: Session, i: nat)
    requires Playable(s, i)
    ensures var twice := Found(Found(s, i), i);
            var p := s.nextPlane;
            && Playable(twice, i)
            && twice.anchors[i].children == s.anchors[i].children + multiset{p, p + 1}
            && twice.planes[i] == p + 1
  {
    var p := s.nextPlane;
    FoundAddsPlane(s, i);
    FoundAddsPlane(Found(s, i), i);
    assert multiset{p} + multiset{p + 1} == multiset{p, p + 1};
  }

  /** After a repeated found event, a lost event detaches only the second
      plane: the first stays in the group. */
  lemma RepeatedFoundLeavesOrphan(s: Session, i: nat)
    requires Playable(s, i)
    ensures Lost(Found(Found(s, i), i), i).anchors[i].children == s.anchors[i].children + multiset{s.nextPlane}
  {
    var p := s.nextPlane;
    RepeatedFoundAccumulates(s, i);
    var c := s.anchors[i].children;
    assert c + multiset{p, p + 1} - multiset{p + 1} == c + multiset{p};
  }

  /** A lost event hides the group; the recorded plane, if any, is detached
      and forgotten, otherwise the planes are unchanged; the artwork's video
      is paused and hidden, and no other video, index or plane is touched. */
  lemma LostDetachesPlane(s: Session, i: nat)
    requires Valid(s) && i in s.anchors
    ensures var r := Lost(s, i);
            var key := s.anchors[i].artwork;
            && !r.anchors[i].visible && r.anchors[i].artwork == key
            && i !in r.planes
            && (i in s.planes ==> r.anchors[i].children == s.anchors[i].children - multiset{s.planes[i]})
            && (i !in s.planes ==> r.planes == s.planes && r.anchors[i].children == s.anchors[i].children)
            && (forall j :: j != i ==> (j in r.planes <==> j in s.planes) && (j in s.planes ==> r.planes[j] == s.planes[j]))
            && (forall j :: j in s.anchors && j != i ==> j in r.anchors && r.anchors[j] == s.anchors[j])
            && r.videos.Keys == s.videos.Keys
            && (key in s.videos ==> r.videos[key] == s.videos[key].(playRequested := false, hidden := true))
            && (forall k :: k in s.videos && k != key ==> r.videos[k] == s.videos[k])
            && r.meshes == s.meshes && r.dims == s.dims
  {
    var r := Lost(s, i);
    if i !in s.planes {
      assert r.planes == s.planes;
    }
  }

  /** The dimension cache is read from the engine only when it is empty and a
      plane is actually being created; an entry is kept exactly when it is a
      pair of finite positive numbers. */
  lemma FoundReadsDimsOnlyWhenEmpty(s: Session, i: nat)
    requires Valid(s) && i in s.anchors
    ensures |s.dims| > 0 ==> Found(s, i).dims == s.dims
    ensures s.anchors[i].artwork !in s.videos ==> Found(s, i).dims == s.dims
    ensures s.engine.None? || s.engine.value.dimensions.None? ==> Found(s, i).dims == s.dims
    ensures |s.dims| == 0 && s.anchors[i].artwork in s.videos && s.engine.Some? && s.engine.value.dimensions.Some? ==>
              var ds := s.engine.value.dimensions.value;
              var m := Found(s, i).dims;
              && (forall idx: nat :: idx in m <==> idx < |ds| && UsableDims(ds[idx]))
              && (forall idx :: idx in m ==> m[idx] == Dims(ds[idx].items[0].value, ds[idx].items[1].value))
  {
    if s.anchors[i].artwork in s.videos && |s.dims| == 0 && s.engine.Some? && s.engine.value.dimensions.Some? {
      var ds := s.engine.value.dimensions.value;
      var shown := s.(anchors := s.anchors[i := s.anchors[i].(visible := true)]);
      assert Found(s, i).dims == CreatePlane(shown, i).dims == CollectDims(ds, 0);
    }
  }

  /** The aspect source of the plane a found event creates: the cached
      target dimensions for the index, else the video's native size when both
      sides are nonzero, else the plane waits on the video's metadata. */
  lemma FoundAspectPrecedence(s: Session, i: nat)
    requires Playable(s, i)
    ensures var r := Found(s, i);
            var v := s.videos[s.anchors[i].artwork];
            var p := s.nextPlane;
            && (i in r.dims ==> r.meshes[p].aspect == FromTarget(r.dims[i].width, r.dims[i].height))
            && (i !in r.dims && v.width != 0 && v.height != 0 ==> r.meshes[p].aspect == FromVideo(v.width, v.height))
            && (i !in r.dims && (v.width == 0 || v.height == 0) ==>
                  r.meshes[p].aspect == AwaitingMetadata
                  && r.videos[s.anchors[i].artwork].metadataWaiters == v.metadataWaiters + {p})
            && (r.meshes[p].aspect != AwaitingMetadata ==>
                  r.videos[s.anchors[i].artwork].metadataWaiters == v.metadataWaiters)
  {
  }

  /** A plane left waiting for metadata takes the video's reported size when
      it arrives, or stays unscaled when a side is zero. */
  lemma DeferredPlaneScaledOnMetadata(s: Session, i: nat, width: nat, height: nat)
    requires Playable(s, i)
    requires i !in Found(s, i).dims
    requires s.videos[s.anchors[i].artwork].width == 0 || s.videos[s.anchors[i].artwork].height == 0
    ensures var after := MetadataLoaded(Found(s, i), s.anchors[i].artwork, width, height);
            && after.meshes[s.nextPlane].aspect == ApplyMetadata(width, height)
            && (after.meshes[s.nextPlane].aspect.FromVideo? <==> width != 0 && height != 0)
  {
    FoundAspectPrecedence(s, i);
    FoundAddsPlane(s, i);
  }

  /** The playback policy of a found event: the source is taken from
      `data-src` exactly when `src` is empty and `data-src` is not; the video
      is unhidden; with metadata loaded play is requested at once and again
      on `canplay`, otherwise the video is loaded and play waits for
      `canplay`. No other video is touched. */
  lemma FoundStartsVideo(s: Session, i: nat)
    requires Playable(s, i)
    ensures var key := s.anchors[i].artwork;
            var v := s.videos[key];
            var w := Found(s, i).videos[key];
            && (w.src != v.src <==> v.src == "" && v.dataSrc != "")
            && (w.src != v.src ==> w.src == v.dataSrc)
            && !w.hidden
            && w.canPlayWaiters == v.canPlayWaiters + 1
            && (v.readyState >= 1 ==> w.playRequested && w.playCalls == v.playCalls + 1 && w.loadCalls == v.loadCalls)
            && (v.readyState < 1 ==> w.playRequested == v.playRequested && w.playCalls == v.playCalls
                                     && w.loadCalls == v.loadCalls + 1)
            && (forall k :: k in s.videos && k != key ==> Found(s, i).videos[k] == s.videos[k])
  {
    FoundEngagesVideo(s, i);
  }

  /** The artwork's video after a found event is the engaged video, with the
      plane's metadata listener possibly added; other videos are untouched. */
  lemma FoundEngagesVideo(s: Session, i: nat)
    requires Playable(s, i)
    ensures var key := s.anchors[i].artwork;
            var w := Found(s, i).videos[key];
            && w == Engage(s.videos[key].(metadataWaiters := w.metadataWaiters))
            && (forall k :: k in s.videos && k != key ==> Found(s, i).videos[k] == s.videos[k])
  {
  }

  /** Whatever the video's ready state, a found event followed by `canplay`
      leaves the video asked to play and visible, with a source whenever it
      had one or a `data-src`. */
  lemma FoundThenCanPlayPlays(s: Session, i: nat)
    requires Playable(s, i)
    ensures var key := s.anchors[i].artwork;
            var v := s.videos[key];
            var w := CanPlay(Found(s, i), key).videos[key];
            && w.playRequested && !w.hidden
            && w.playCalls > v.playCalls
            && (v.src != "" || v.dataSrc != "" ==> w.src != "")
  {
    FoundStartsVideo(s, i);
  }

  /** A lost event does not remove the pending `canplay` listener: if the
      video becomes playable afterwards, play is requested again although the
      video stays hidden. */
  lemma LostThenCanPlayResumes(s: Session, i: nat)
    requires Playable(s, i)
    ensures var key := s.anchors[i].artwork;
            var w := CanPlay(Lost(Found(s, i), i), key).videos[key];
            w.playRequested && w.hidden
  {
    FoundStartsVideo(s, i);
    FoundAddsPlane(s, i);
  }

  // ---------------------------------------------------------------------
  // Start and stop

  /** A fresh registration of every index: one hidden, empty anchor per
      target index, capturing that index's artwork. */
  ghost predicate FullyRegistered(s: Session) {
    && (forall i: nat :: i in s.anchors <==> i < |s.keys|)
    && (forall i: nat :: i < |s.keys| ==> i in s.targetMap && s.anchors[i] == Anchor(s.targetMap[i], false, multiset{}))
  }

  /** When the engine starts, the tracker runs with its render loop, holds
      the engine, and has exactly one fresh anchor per target index, each
      capturing its index's artwork. */
  lemma StartRegistersEveryIndex(s: Session, engine: Engine, camera: nat -> Camera.HostAnswer)
    requires Valid(s) && !s.running
    ensures var r := Start(s, EngineReady, engine, camera);
            && r.1 == Tracking
            && r.0.running && r.0.rendering && r.0.engine == Some(engine)
            && FullyRegistered(r.0)
  {
    var r := Start(s, EngineReady, engine, camera).0;
    forall i: nat | i in r.anchors
      ensures i < |s.keys|
    {
      if i !in Register(s.(engine := Some(engine)), |s.keys|).anchors {
      } else if i in s.anchors {
        assert i in s.targetMap;
      }
    }
  }

  /** How far a failed engine phase got: without a constructed engine the
      handle and the anchors are left as they were; otherwise the handle is
      the new engine and the indices before the failure have fresh anchors. */
  lemma StartRegistersBeforeFailure(s: Session, phase: EnginePhase, engine: Engine, camera: nat -> Camera.HostAnswer)
    requires !s.running
    ensures var r := Start(s, phase, engine, camera).0;
            && (phase.NoConstructor? || phase.ConstructorLookupThrew? || phase.ConstructThrew? ==>
                  r.engine == s.engine && r.anchors == s.anchors)
            && (phase.AnchorThrew? || phase.EngineStartRejected? || phase.LayoutThrew? || phase.EngineReady? ==>
                  && r.engine == Some(engine)
                  && forall i: nat :: i < Registered(phase, |s.keys|) ==> r.anchors[i] == Anchor(s.keys[i], false, multiset{}))
            && (phase.AnchorThrew? && phase.at < |s.keys| ==> Registered(phase, |s.keys|) == phase.at)
  {
  }

  /** Every engine failure routes to the camera fallback, which is asked at
      least once and at most `FallbackTries(phase)` times; the start resolves
      exactly when some answer within that budget grants a stream (and then
      one camera feed is appended), and otherwise rejects with the last
      answer's error after using the whole budget. */
  lemma StartFallsBackOnEngineError(s: Session, phase: EnginePhase, engine: Engine, camera: nat -> Camera.HostAnswer)
    requires !s.running && phase != EngineReady
    ensures var r := Start(s, phase, engine, camera);
            && (r.1.FellBack? || r.1.Rejected?)
            && 1 <= r.1.requests <= FallbackTries(phase)
            && (r.1.FellBack? <==> exists k :: 0 <= k < FallbackTries(phase) && camera(k).Granted?)
            && (r.1.FellBack? ==> r.0.feeds == s.feeds + 1 && camera(r.1.requests - 1).Granted?)
            && (r.1.Rejected? ==> && r.1.requests == FallbackTries(phase)
                                  && r.1.error == camera(r.1.requests - 1).error
                                  && r.0.feeds == s.feeds)
  {
  }

  /** A start that was not a no-op leaves the tracker running exactly when
      the engine got past its own start, or the camera fallback succeeded. */
  lemma StartRunningIff(s: Session, phase: EnginePhase, engine: Engine, camera: nat -> Camera.HostAnswer)
    requires !s.running
    ensures var r := Start(s, phase, engine, camera);
            r.0.running <==> phase.EngineReady? || phase.LayoutThrew? || r.1.FellBack?
  {
  }

  /** With no engine constructor found and a camera that always refuses,
      one start asks for the camera three times before rejecting. */
  lemma NoConstructorAsksCameraThrice(s: Session, engine: Engine)
    requires !s.running
    ensures Start(s, NoConstructor, engine, k => Camera.Refused(Camera.Falsy)) == (s, Rejected(Camera.Falsy, 3))
  {
  }

  /** A throw while looking up the engine constructor leaves two fallback
      requests: with a camera that refuses both, the start is rejected with
      the second refusal after exactly two requests. */
  lemma LookupThrowAsksCameraTwice(s: Session, engine: Engine, camera: nat -> Camera.HostAnswer)
    requires !s.running
    requires camera(0).Refused? && camera(1).Refused?
    ensures Start(s, ConstructorLookupThrew, engine, camera).1 == Rejected(camera(1).error, 2)
  {
  }

  /** A failure once the constructor was found (constructing the engine,
      adding an anchor, starting the engine) leaves one fallback request: a
      refusal rejects the start after exactly one request. */
  lemma LoadFailureAsksCameraOnce(s: Session, phase: EnginePhase, engine: Engine, camera: nat -> Camera.HostAnswer)
    requires !s.running
    requires phase.ConstructThrew? || phase.AnchorThrew? || phase.EngineStartRejected?
    requires camera(0).Refused?
    ensures Start(s, phase, engine, camera).1 == Rejected(camera(0).error, 1)
  {
  }

  /** A failure after `running` was set rejects the start while the tracker
      stays running. */
  lemma LateFailureRejectsWhileRunning(s: Session, loop: bool, engine: Engine)
    requires !s.running
    ensures var r := Start(s, LayoutThrew(loop), engine, k => Camera.Refused(Camera.Falsy));
            r.1 == Rejected(Camera.Falsy, 1) && r.0.running
  {
  }

  /** Stopping twice with the same faults is stopping once. */
  lemma StopIdempotent(s: Session, f: StopFaults)
    ensures Stop(Stop(s, f).0, f).0 == Stop(s, f).0
  {
  }

  /** After a stop, a successful start rebuilds exactly the anchors the first
      start after construction builds, whatever happened before: same index
      map, one fresh anchor per index capturing the same artwork. */
  lemma RestartRebuildsSameAnchors(s: Session, f: StopFaults, e1: Engine, e2: Engine,
                                   c1: nat -> Camera.HostAnswer, c2: nat -> Camera.HostAnswer)
    requires Valid(s)
    ensures var again := Start(Stop(s, f).0, EngineReady, e2, c2).0;
            var first := Start(Construct(s.keys, s.videos), EngineReady, e1, c1).0;
            again.targetMap == first.targetMap && again.anchors == first.anchors
  {
    var stopped := Stop(s, f).0;
    var again := Start(stopped, EngineReady, e2, c2).0;
    var first := Start(Construct(s.keys, s.videos), EngineReady, e1, c1).0;
    StartRegistersEveryIndex(stopped, e2, c2);
    StartRegistersEveryIndex(Construct(s.keys, s.videos), e1, c1);
    assert s.targetMap == Construct(s.keys, s.videos).targetMap;
    assert again.anchors.Keys == first.anchors.Keys;
  }
}

=== FILE: wrappers.dfy ===
/** Optional values, shared by every module of the model. */
module Wrappers {

  /** A value that may be absent (JavaScript's `undefined`/`null`). */
  datatype Option<+T> = None | Some(value: T) {

    /** The value, or `default` when absent (JavaScript's `??`). */
    function GetOr(default: T): T {
      match this
      case Some(v) => v
      case None => default
    }
  }

  /** The outcome of an operation that either yields a value or throws. */
  datatype Result<+R, +E> = Success(value: R) | Failure(error: E)
}
